=== FILE: README.md ===
# EASY Lottery: draw, redemption and pacing core in Dafny

EASY Lottery is a company-event lottery server. It keeps four prize levels:
first, second and third prize (the "higher tiers") and a comfort prize for
everyone else. A staff member starts a draw for an employee. The server then
samples up to five candidate levels and stores them in a draw session; stock
is not touched yet. The employee picks one candidate. Confirming that pick
redeems it in one transaction:

- the level's remaining stock drops by one;
- a row is appended to the redemption ledger;
- the session is marked used;
- the employee is locked, so they cannot draw again.

Candidate levels are sampled from probabilities chosen by a pacing controller.
The event is split into three time windows, each with a share of the higher
tiers' total capacity as its issuance target. When issuance lags the target,
the controller raises the higher tiers' probability; when it runs ahead, the
probability is lowered. It is clamped to configured bounds and boosted after a
comfort-only streak. That probability is then split over the higher tiers in
proportion to their remaining stock, and a depleted tier gets nothing. One
hard-coded employee number is always offered a first prize while first prizes
remain. Admin endpoints re-total the stock or restock it, and both clear the
ledger.

The model has these modules:

- `Basics`: JavaScript's `||` fallbacks, floor division and `trim`.
- `Tiers`: the four levels and a probability vector.
- `Settings`: the configuration row and its defaults.
- `Window`: `nowWindowAndTargets`.
- `Pacing`: `decideProbabilities`.
- `Sampler`: `sampleByProbs`.
- `Proposals`: the candidate count, the sampling loop and the VIP override.
- `Store`: the tables as a class, one method per prepared statement and per endpoint.

The clock, `Math.random()` and `nanoid()` become parameters: `now`, the
uniform numbers `rs` and `vipR`, and the ids `sessionId` and `drawId`. All
arithmetic is over exact integers and reals.

## Model

| member | source | states |
|---|---|---|
| Basics.OrInt | EASY_Lottery/_windows/server.js:207 | `x \|\| d` on a number: the value itself unless it is 0, then the default |
| Basics.OrReal | EASY_Lottery/_windows/server.js:238-246 | `x \|\| d` on a real setting: the value itself unless it is 0, then the default |
| Basics.FloorDiv | EASY_Lottery/_windows/server.js:208 | `Math.floor(a / b)` is non-negative when a and b have the same sign and negative when they have opposite signs (FloorDivIsFloor gives the exact value) |
| Basics.TrimStart | EASY_Lottery/_windows/server.js:318 | the result is a suffix of the input, everything removed before it is white space, and it does not start with white space |
| Basics.TrimEnd | EASY_Lottery/_windows/server.js:318 | the result is a prefix of the input, everything removed after it is white space, and it does not end with white space |
| Basics.Trim | EASY_Lottery/_windows/server.js:318 | `String(s).trim()` is a slice s[a..b] with only white space outside [a, b) and none at its own ends: exactly the leading and trailing white space is removed |
| Basics.FloorDivIsFloor | EASY_Lottery/_windows/server.js:208 | `FloorDiv` is `Math.floor(a / b)`: the largest multiple of b not past a, for either sign of b |
| Basics.NonEmpty | EASY_Lottery/_windows/server.js:311 | `s \|\| null`: None exactly for the empty string, otherwise the string itself |
| Tiers.CountHigher | EASY_Lottery/_windows/server.js:245 | the number of higher-tier entries is at most the length, and 0 exactly when every entry is comfort |
| Settings.Duration | EASY_Lottery/_windows/server.js:207-209 | `duration_min \|\| 180`: the configured duration, or 180 when unset |
| Settings.WinLen | EASY_Lottery/_windows/server.js:207 | window length is never 0; it is positive for a non-negative duration; it is the floor of a third of the effective duration (3l <= duration < 3l + 3, so 60 for the default 180), and 60 when that third is 0 (durations 0-2) |
| Settings.SlideB | EASY_Lottery/_windows/server.js:243 | trailing window size is at least 1, the configured size when that is at least 1, and 10 when unset |
| Settings.ExpectedHits | EASY_Lottery/_windows/server.js:246 | expected hits never exceed the window size; they are the configured target when set and within it, min(2, B) when unset, and B when the target exceeds B |
| Window.PerWindow | EASY_Lottery/_windows/server.js:211 | three targets, each the window's share times the higher tiers' capacity |
| Window.ElapsedMinutes | EASY_Lottery/_windows/server.js:205 | whole minutes since the start, never negative, 0 before the start, and otherwise the floor of the elapsed milliseconds over 60000 |
| Window.CumFrom | EASY_Lottery/_windows/server.js:212-218 | the loop from window w on; with positive window length, a window not yet begun adds nothing |
| Window.WindowAndTargets | EASY_Lottery/_windows/server.js:202-220 | before the start (start_ts 0) there is no window and every target is 0; once started there is a window index, and the minutes passed are the whole minutes since the start capped at the duration |
| Window.AccumulateTarget | EASY_Lottery/_windows/server.js:212-218 | the accumulation loop with its early breaks computes `CumFrom`, the window-by-window target |
| Window.NowWindowAndTargets | EASY_Lottery/_windows/server.js:202-220 | the step-by-step computation returns exactly `WindowAndTargets` |
| Window.WindowIndexInRange | EASY_Lottery/_windows/server.js:205-209 | once started with a non-negative duration, the window index is 0, 1 or 2, the window target is that window's, and 0 <= minutes passed <= duration; minutes passed = min(elapsed, duration); windows 0 and 1 hold exactly the elapsed minutes in [i*winLen, (i+1)*winLen), window 2 every minute from 2*winLen on |
| Window.ActiveWindow | EASY_Lottery/_windows/server.js:208 | `min(2, floor(e / L))` is the third that minute e falls in, and the last one once e >= 2L |
| Window.TargetIsInterpolated | EASY_Lottery/_windows/server.js:209-218 | target so far = full targets of the windows already over + the elapsed fraction of the current window's target (closed form) |
| Window.CumMatchesInterpolated | EASY_Lottery/_windows/server.js:212-218 | the loop's sum agrees with the closed-form curve for every minute count, in each of the four cases |
| Window.TargetReachesTotal | EASY_Lottery/_windows/server.js:212-218 | once all three windows are over, the target is (share1 + share2 + share3) times the capacity |
| Window.TargetStartsAtZero | EASY_Lottery/_windows/server.js:205-218 | for an event of non-negative duration, in the first minute after the start: 0 minutes passed, target 0, window 0 |
| Window.TargetMonotone | EASY_Lottery/_windows/server.js:205-218 | with non-negative shares and capacity, the target never decreases as the clock advances, whatever the duration |
| Window.CumFromMonotone | EASY_Lottery/_windows/server.js:212-218 | the accumulated target is monotone in the minutes passed |
| Pacing.BaseShare | EASY_Lottery/_windows/server.js:226-228 | p_na0 lies in [0, 1]; it is 0 exactly when no higher-tier stock remains and 1 exactly when only higher-tier stock remains; with any stock, p_na0 * (higher stock + consolation stock) = higher stock |
| Pacing.Deviation | EASY_Lottery/_windows/server.js:236 | d is 0 whenever the window target is not positive |
| Pacing.DeviationMeasuresLag | EASY_Lottery/_windows/server.js:236 | with a positive window target, d times the target is the lag, and d > 0 exactly when issuance is behind |
| Pacing.Multiplier | EASY_Lottery/_windows/server.js:238 | m is at least m_min, at most m_max when the bounds are ordered; it is 1 + alpha*d when that lies within them, m_max above them, m_min below them, and m_min when the bounds are crossed |
| Pacing.PacedShare | EASY_Lottery/_windows/server.js:240 | p_na is at least pna_min, at most pna_max when the bounds are ordered; it is m*p_na0 when that lies within them, pna_max above them, pna_min below them, and pna_min when the bounds are crossed |
| Pacing.Drought | EASY_Lottery/_windows/server.js:243-247 | the boost fires exactly when the ledger has at least B - 1 rows and its last min(B, length) levels hold fewer higher-tier hits than expected; never when the expected hits are not positive |
| Pacing.ComfortStreakBoosts | EASY_Lottery/_windows/server.js:243-247 | a ledger of at least B - 1 rows whose trailing window holds only consolation prizes always triggers the boost while any hit is expected |
| Tiers.AllComfortNoHits | EASY_Lottery/_windows/server.js:245 | a list of consolation prizes only counts no higher-tier hit |
| Pacing.Recent | EASY_Lottery/_windows/server.js:244 | the last min(B, ledger length) levels of the ledger, in order |
| Pacing.Boosted | EASY_Lottery/_windows/server.js:243-251 | unchanged without a drought; with one, p_na + 0.12 when that is at most pna_max and pna_max otherwise, so never above pna_max, and kept within the bounds |
| Pacing.Renorm | EASY_Lottery/_windows/server.js:257 | above 1e-9 the higher tiers are rescaled to sum to p_na with comfort kept; otherwise all goes to comfort; a zero entry stays zero |
| Pacing.Initial | EASY_Lottery/_windows/server.js:253-255 | the stock-proportional split before depletion handling: comfort gets 1 - p_na and a higher tier without stock gets 0 |
| Pacing.Step | EASY_Lottery/_windows/server.js:257-260 | one `if (Qi===0) { pi=0; renormToNA(); }` line: no change when the tier has stock; otherwise that tier ends at 0 and no tier that was 0 becomes positive |
| Pacing.Split | EASY_Lottery/_windows/server.js:253-260 | after the three steps every higher tier without stock has probability 0 |
| Pacing.DecideProbabilities | EASY_Lottery/_windows/server.js:221-266 | p_na0 is the stock share `BaseShare`; d is the relative lag `Deviation` of the higher-tier draws behind the window target `WindowAndTargets`; m is the clamped `Multiplier` of d; p_na is the drought `Boosted` value of the clamped `PacedShare` m * p_na0; the probabilities are the `Split` of p_na; p_na0 in [0, 1]; m within its clamp; p_na within [pna_min, pna_max] even after the 0.12 boost; d = 0 without a positive window target |
| Pacing.SplitClosedForm | EASY_Lottery/_windows/server.js:253-260 | the split is p_na shared in proportion to remaining stock (comfort 1 - p_na), or everything to comfort when there is no higher-tier stock or a depleted tier meets p_na <= 1e-9 |
| Pacing.SplitOf | EASY_Lottery/_windows/server.js:253-260 | per tier: each higher tier gets p_na times its stock share, and comfort gets 1 - p_na, or 0/0/0/1 when collapsed |
| Pacing.StepKeeps | EASY_Lottery/_windows/server.js:258-260 | zeroing and renormalising a tier that is already 0 leaves a split summing to p_na unchanged |
| Pacing.StepCollapses | EASY_Lottery/_windows/server.js:257-260 | zeroing a tier that leaves at most 1e-9 for the higher tiers gives everything to comfort |
| Pacing.SplitCollapses | EASY_Lottery/_windows/server.js:253-260 | without the proportional case the three steps end in 0/0/0/1 |
| Pacing.ProbabilitiesSumToOne | EASY_Lottery/_windows/server.js:221-266 | the four probabilities always sum to 1 |
| Pacing.DepletedTierNeverOffered | EASY_Lottery/_windows/server.js:258-260 | a higher tier with no remaining stock gets probability exactly 0 |
| Pacing.NoHigherStockAllComfort | EASY_Lottery/_windows/server.js:253-260 | with no higher-tier stock left, comfort gets probability 1 and the rest 0 |
| Pacing.ProportionalToStock | EASY_Lottery/_windows/server.js:253-260 | in the proportional case the controller's probabilities are exactly the initial stock-proportional split |
| Pacing.DepletionRedistributes | EASY_Lottery/_windows/server.js:257-259 | with second prizes exhausted, first and third prize share all of p_na between them |
| Pacing.ProbabilitiesInUnitRange | EASY_Lottery/_windows/server.js:240-260 | with 0 <= pna_min <= pna_max <= 1 every probability lies in [0, 1] |
| Pacing.FreshStartIsUnpaced | EASY_Lottery/_windows/server.js:234-241 | for an event of non-negative duration, in the first minute with nothing issued: d = 0, m = 1, and p_na = p_na0 when that is within bounds and there is no drought |
| Sampler.Sample | EASY_Lottery/_windows/server.js:269-275 | r selects the band [0,p1), [p1,p1+p2), [p1+p2,p1+p2+p3) or the rest; bands are exact for non-negative widths |
| Sampler.SampledHasPositiveProbability | EASY_Lottery/_windows/server.js:269-275 | for probabilities summing to 1 and r in [0, 1), a level of probability 0 is never returned |
| Sampler.SampledHigherTierInStock | EASY_Lottery/_windows/server.js:314-316 | a higher tier sampled from the controller's probabilities always has remaining stock, whatever the configured bounds |
| Proposals.DrawCount | EASY_Lottery/_windows/server.js:313 | the candidate count is between 1 and 5, the requested count when it is in range, 5 above and 1 when missing or not positive |
| Proposals.SampleAll | EASY_Lottery/_windows/server.js:315-316 | one candidate per uniform number, each sampled from the same probabilities |
| Proposals.SampleOptions | EASY_Lottery/_windows/server.js:315-316 | the push loop yields exactly `SampleAll` |
| Proposals.IsVip | EASY_Lottery/_windows/server.js:318 | the VIP number itself qualifies, and any qualifying employee number is at least as long as it |
| Proposals.VipEmpIdIsTrimmed | EASY_Lottery/_windows/server.js:318 | the VIP number has no white space to trim |
| Proposals.VipSlot | EASY_Lottery/_windows/server.js:331 | `Math.floor(r * length)`: k <= r * length < k + 1, a valid index |
| Proposals.VipOverride | EASY_Lottery/_windows/server.js:318-333 | the length is kept, and only a slot turned into a first prize can differ; when the override applies (VIP after trim, first prizes left, none offered) exactly one candidate is first prize and all other slots are unchanged; otherwise the list is untouched |
| Proposals.VipAlwaysOfferedFirst | EASY_Lottery/_windows/server.js:318-333 | the VIP employee is always offered a first prize while first prizes remain |
| Proposals.Offered | EASY_Lottery/_windows/server.js:315-333 | one candidate per uniform number; each slot is the tier its number samples from the probabilities, or a first prize in the VIP slot; the VIP employee gets a first prize while first prizes remain |
| Store.StockIn | EASY_Lottery/_windows/server.js:222-224 | the stock each level sees is its remaining count, 0 for a missing row |
| Store.TotalsNA | EASY_Lottery/_windows/server.js:230-232 | the higher tiers' total capacity: never negative for valid rows, 0 when there are no higher-tier rows |
| Store.Probabilities | EASY_Lottery/_windows/server.js:314 | the controller's decision on the current tables: its probabilities sum to 1 and a level with no remaining stock gets 0 |
| Store.Proposed | EASY_Lottery/_windows/server.js:313-333 | the candidates are `Offered` from the controller's probabilities on the current tables: one per uniform number, each the sample of its number or a first prize in the VIP slot, and a first-prize candidate for the VIP employee while first prizes remain |
| Store.Levels | EASY_Lottery/_windows/server.js:244 | the ledger's levels in ledger order |
| Store.Upserted | EASY_Lottery/_windows/server.js:164-168 | the upsert adds an unlocked row stamped `now` for a new employee; for a known one it changes only the name, never the lock flag or first timestamp; other rows are untouched |
| Store.ConfirmVerdict | EASY_Lottery/_windows/server.js:346-366 | each outcome exactly: missing fields give a validation error; an absent session, not found; a used one, already used; a locked employee, already locked; a bad index, invalid choice; once all of these pass, out of stock exactly when the level has none left, a duplicate id exactly when the id is taken, and success otherwise |
| Store.Quota | EASY_Lottery/_windows/server.js:489 | `Math.max(0, Number(v) \|\| 0)` on a whole-number quota: never negative, the value itself when non-negative |
| Store.QuotaAsWritten | EASY_Lottery/_windows/server.js:489 | the same on any number: never negative, and a non-negative fraction is kept as it is |
| Store.DrainAsWritten | EASY_Lottery/_windows/server.js:129 | repeated `decRemaining` on a real count: a count that is not positive is never decremented |
| Store.DrainWhilePositive | EASY_Lottery/_windows/server.js:129 | while the count stays positive every decrement takes effect |
| Store.FractionalQuotaGoesNegative | EASY_Lottery/_windows/server.js:489 | a fractional quota v lets floor(v) + 1 confirmations succeed and leaves the count below 0 |
| Store.QuotaTwoAndAHalf | EASY_Lottery/_windows/server.js:489 | a quota of 2.5 ends at -0.5 after three confirmations |
| Store.Drain | EASY_Lottery/_windows/server.js:129 | repeated `decRemaining` on a whole-number count never makes a non-negative count negative |
| Store.IntegerStockNeverNegative | EASY_Lottery/_windows/server.js:489 | with a whole-number quota, k redemption attempts leave max(0, quota - k) |
| Store.Retotalled | EASY_Lottery/_windows/server.js:488-490 | every existing level gets total = remaining = its quota; no row is added or removed |
| Store.Restocked | EASY_Lottery/_windows/server.js:130 | every row's remaining stock is set to its total; no row is added or removed |
| Store.IssuedAppend | EASY_Lottery/_windows/server.js:132-135 | appending one ledger row adds one to the count of its level only |
| Store.RedeemKeepsStock | EASY_Lottery/_windows/server.js:365-374 | decrementing a level while appending a row at it keeps 0 <= remaining <= total and remaining + redeemed = total at every level |
| Store.UpsertKeeps | EASY_Lottery/_windows/server.js:311 | the upsert keeps every session owned and every award recorded, and never clears a lock flag |
| Store.OpenSessionKeeps | EASY_Lottery/_windows/server.js:337-338 | opening a fresh session keeps the invariants and changes no existing session |
| Store.ConfirmKeeps | EASY_Lottery/_windows/server.js:375-376 | marking the session used and locking the employee keeps the invariants; no session and no employee is ever awarded twice |
| Store.RowsKeptTransitive | EASY_Lottery/_windows/server.js:164-174 | "flags only go one way" composes over successive statements |
| Store.CountHigherIsIssued | EASY_Lottery/_windows/server.js:158-160 | the ledger's higher-tier count is the sum of its per-level counts |
| Store.IssuedIsConsumedStock | EASY_Lottery/_windows/server.js:230-235 | the issuedNA the controller reads equals the higher tiers' total minus their remaining stock |
| Store.ProposedInStock | EASY_Lottery/_windows/server.js:313-333 | every higher-tier candidate startDraw proposes has stock left, the VIP slot included, whatever the configured bounds |
| Store.LotteryStore.constructor | EASY_Lottery/_windows/server.js:97-115 | first boot: the seeded configuration and stock of 35/70/130/800; empty ledger, participants and sessions |
| Store.LotteryStore.DecRemaining | EASY_Lottery/_windows/server.js:129 | a row changes exactly when the level exists with positive stock, and then only its remaining count drops by one |
| Store.LotteryStore.InsertDraw | EASY_Lottery/_windows/server.js:132-135 | the row is appended exactly when its id is new |
| Store.LotteryStore.MarkSessionUsed | EASY_Lottery/_windows/server.js:174 | only the used flag of that session is set |
| Store.LotteryStore.LockParticipant | EASY_Lottery/_windows/server.js:169 | only the lock flag of that participant is set |
| Store.LotteryStore.UpsertParticipant | EASY_Lottery/_windows/server.js:164-168 | the participant table becomes `Upserted` of the old one |
| Store.LotteryStore.InsertSession | EASY_Lottery/_windows/server.js:170-172 | the session is added exactly when its id is new |
| Store.LotteryStore.UpdateConfig | EASY_Lottery/_windows/server.js:119-127 | only the configuration row changes |
| Store.LotteryStore.StartDraw | EASY_Lottery/_windows/server.js:304-340 | missing empId is rejected, then a locked employee; it succeeds exactly when empId is given, the employee is not locked and the session id is new; otherwise the upsert happens, and a new session id yields a session with used = false holding DrawCount(count) candidates equal to `Proposed`; stock, ledger and awards never change; flags only go one way |
| Store.LotteryStore.ConfirmChoice | EASY_Lottery/_windows/server.js:346-383 | fails exactly when `ConfirmVerdict` names an error, with that error, and then changes nothing; success decrements the chosen level, appends the ledger row, marks the session used and locks the employee, and nothing else |
| Store.LotteryStore.Redeem | EASY_Lottery/_windows/server.js:363-378 | the transaction: out of stock or a duplicate id rolls everything back; otherwise exactly the four changes |
| Store.LotteryStore.Debit | EASY_Lottery/_windows/server.js:365-374 | decrement, then append; a failed append rolls the decrement back |
| Store.LotteryStore.Settle | EASY_Lottery/_windows/server.js:375-376 | the session becomes used, the employee locked, and the award is recorded |
| Store.LotteryStore.SetTotals | EASY_Lottery/_windows/server.js:486-494 | total = remaining = max(0, v) for every existing level; the ledger is emptied; participants and sessions are untouched |
| Store.LotteryStore.Reset | EASY_Lottery/_windows/server.js:496-502 | remaining := total for every level and the ledger is emptied; participants and sessions are untouched |

The endpoint methods (`StartDraw`, `ConfirmChoice`, `SetTotals`, `Reset`, `UpdateConfig`), the transaction halves (`Redeem`, `Debit`, `Settle`) and the constructor keep `Valid()`. The statement primitives (`DecRemaining`, `InsertDraw`, `MarkSessionUsed`, `LockParticipant`, `UpsertParticipant`, `InsertSession`) state their exact effect instead, since inside a transaction `Valid()` holds only at its end. `Valid()` holds these invariants:

- 0 <= remaining <= total at each level.
- Remaining plus ledger rows at a level equals its total (stock is conserved).
- Every session belongs to a participant row.
- Each recorded award has left its session used and its employee locked.
- No session and no employee is awarded twice, across resets as well.

## Findings

| source | as written | input that shows it | evidently intended | confidence | as-written member | corrected member |
|---|---|---|---|---|---|---|
| EASY_Lottery/_windows/server.js:489 | `Math.max(0, Number(v) \|\| 0)` keeps a fractional quota; the database stores it unchanged, and `decRemaining` (line 129) only asks for `remaining > 0` | setTotals with q1 = 2.5, then three confirmations of a first prize: remaining goes 2.5, 1.5, 0.5, -0.5 | whole-number quotas, so that remaining stock never drops below 0 | not executed; medium (rests on SQLite keeping a non-integral number in an INTEGER column as a REAL) | Store.FractionalQuotaGoesNegative | Store.IntegerStockNeverNegative |

The store takes whole-number quotas (`Store.Quota`), so `Valid()` keeps 0 <= remaining <= total through every endpoint.

## Left out

- Store.Quota: takes a whole-number quota. The source accepts any number, stores a fraction such as 2.5 as it is, and then lets the remaining count fall below 0 (see Findings).
- Store.LotteryStore.SetTotals: takes whole-number quotas, so `Valid()` (0 <= remaining) holds after it. With a fractional quota the source breaks that bound (see Findings).
- HTTP routing, token signing and verification, the user table and roles: authentication happens before the modelled logic.
- socket.io broadcasts and `console.log`: no state effect.
- The database schema, migrations and seed inserts beyond the seeded values in the constructor: storage setup.
- The winners list, its count query and the CSV export (`listDraws`, `countDraws`, `esc`): read-only reporting outside the draw core.
- The admin configuration merge that builds the new row from the request and the old row: `UpdateConfig` takes the finished row.
- JSON encoding of the candidate list: the session stores the list itself; the server only parses lists it wrote.
- IEEE-754 rounding: the controller is modelled over exact reals, so float rounding of the probabilities and of their sum is not captured.
- Concurrency: each request runs to completion. The used and locked checks precede the transaction in the source, so two interleaved confirmations are not modelled.
- Store.LotteryStore.StartDraw: a non-integer `count` is not modelled (JavaScript would make `ceil(count)` candidates). A missing count is modelled as 0, which gives 1.
- Store.LotteryStore.StartDraw: `empId` is a string. A numeric employee number in the request body (which `String(empId).trim()` would still compare) is not modelled.
- Store.LotteryStore.ConfirmChoice: `chosenIndex` is an integer or absent. A JSON `null` (which JavaScript turns into index 0) and non-integer indices are not modelled.
- Store.LotteryStore.ConfirmChoice: the stored `emp_name` is not re-coerced with `|| null` on confirmation; the session already holds it as `|| null`.
- Pacing.Recent: the trailing window takes the last ledger rows in append order. The source orders by timestamp, which agrees only when confirmation timestamps strictly increase. Rows with equal timestamps come back in no fixed order, and that order is not modelled.
- One clock reading `now` per request: the source calls `Date.now()` separately for the participant, session and ledger timestamps.
- The `shares` and `debug` fields the controller and the window helper return for display: not used by any decision.
- The prize `name` and `weight` columns: the name always equals the level, and the weight is never read by the draw logic.
- A NULL configuration value is modelled as 0, which every `||` fallback treats the same way.
- Store.LotteryStore.StartDraw and Store.LotteryStore.ConfirmChoice: an id collision from `nanoid()` is modelled as a `DuplicateKey` error. The source would throw. For startDraw the participant upsert has already happened; for confirmChoice the transaction is rolled back.

=== FILE: basics.dfy ===
/** Small value types and numeric helpers shared by the lottery model. */
module Basics {

  datatype Option<+T> = None | Some(value: T)

  datatype Result<+R, +E> = Ok(value: R) | Err(error: E)

  function MinInt(a: int, b: int): int { if a <= b then a else b }
  function MaxInt(a: int, b: int): int { if a >= b then a else b }
  function MinReal(a: real, b: real): real { if a <= b then a else b }
  function MaxReal(a: real, b: real): real { if a >= b then a else b }

  /** JavaScript's `x || d` on a number: a falsy 0 silently becomes the default. */
  function OrInt(x: int, d: int): (r: int)
    ensures r == x || (x == 0 && r == d)
    ensures r != 0 || d == 0
  {
    if x == 0 then d else x
  }

  /** The same fallback on a real-valued setting. */
  function OrReal(x: real, d: real): (r: real)
    ensures r == x || (x == 0.0 && r == d)
    ensures r != 0.0 || d == 0.0
  {
    if x == 0.0 then d else x
  }

  /** JavaScript's `Math.floor(a / b)` for integers; Dafny's `/` only agrees with it when b > 0. */
  function FloorDiv(a: int, b: int): (q: int)
    requires b != 0
    ensures (a >= 0 && b > 0) || (a <= 0 && b < 0) ==> q >= 0
    ensures (a < 0 && b > 0) || (a > 0 && b < 0) ==> q < 0
  {
    if b > 0 then a / b else (-a) / (-b)
  }

  /** FloorDiv is the floor of the exact quotient: b * q is the largest multiple of b not past a. */
  lemma FloorDivIsFloor(a: int, b: int)
    requires b != 0
    ensures b > 0 ==> b * FloorDiv(a, b) <= a < b * FloorDiv(a, b) + b
    ensures b < 0 ==> b * FloorDiv(a, b) + b < a <= b * FloorDiv(a, b)
  {
  }

  /** `s || null` on a string: the empty string is stored as null. */
  function NonEmpty(s: string): (r: Option<string>)
    ensures r.None? <==> s == ""
    ensures r.Some? ==> r.value == s
  {
    if s == "" then None else Some(s)
  }

  /** The characters JavaScript's `String.prototype.trim` strips: white space and line terminators. */
  predicate IsJsSpace(c: char)
  {
    var n := c as int;
    n == 0x09 || n == 0x0A || n == 0x0B || n == 0x0C || n == 0x0D || n == 0x20 ||
    n == 0xA0 || n == 0x1680 || (0x2000 <= n <= 0x200A) || n == 0x2028 || n == 0x2029 ||
    n == 0x202F || n == 0x205F || n == 0x3000 || n == 0xFEFF
  }

  function TrimStart(s: string): (r: string)
    ensures |r| <= |s| && r == s[|s| - |r|..]
    ensures r == [] || !IsJsSpace(r[0])
    ensures forall i :: 0 <= i < |s| - |r| ==> IsJsSpace(s[i])
  {
    if s != [] && IsJsSpace(s[0]) then
      var r := TrimStart(s[1..]);
      LeadingSpaceExtends(s, r);
      r
    else s
  }

  /** White space at the front of `s[1..]`, plus a white-space `s[0]`, is white space at the front of `s`. */
  lemma LeadingSpaceExtends(s: string, r: string)
    requires s != [] && IsJsSpace(s[0]) && |r| <= |s| - 1
    requires forall j :: 0 <= j < |s| - 1 - |r| ==> IsJsSpace(s[1..][j])
    ensures forall i :: 0 <= i < |s| - |r| ==> IsJsSpace(s[i])
  {
    forall i | 0 < i < |s| - |r| ensures IsJsSpace(s[i]) {
      assert s[i] == s[1..][i - 1];
    }
  }

  function TrimEnd(s: string): (r: string)
    ensures |r| <= |s| && r == s[..|r|]
    ensures r == [] || !IsJsSpace(r[|r| - 1])
    ensures forall i :: |r| <= i < |s| ==> IsJsSpace(s[i])
  {
    if s != [] && IsJsSpace(s[|s| - 1]) then TrimEnd(s[..|s| - 1]) else s
  }

  /**
   * JavaScript's `String(s).trim()`: the slice `s[a..b]` left after removing
   * exactly the leading and the trailing white space.
   */
  function Trim(s: string): (r: string)
    ensures |r| <= |s|
    ensures r == [] || (!IsJsSpace(r[0]) && !IsJsSpace(r[|r| - 1]))
    ensures exists a, b :: TrimmedAt(s, r, a, b)
  {
    var t := TrimStart(s);
    var r := TrimEnd(t);
    TrimKeepsSlice(s, t, r, |s| - |t|);
    r
  }

  /** Dropping white space from the front and then from the back leaves a slice with only white space outside it. */
  lemma TrimKeepsSlice(s: string, t: string, r: string, a: int)
    requires 0 <= a <= |s| && t == s[a..] && |r| <= |t| && r == t[..|r|]
    requires forall i :: 0 <= i < a ==> IsJsSpace(s[i])
    requires forall i :: |r| <= i < |t| ==> IsJsSpace(t[i])
    ensures TrimmedAt(s, r, a, a + |r|)
  {
    assert r == s[a..a + |r|];
    forall i | a + |r| <= i < |s| ensures IsJsSpace(s[i]) {
      assert s[i] == t[i - a];
    }
  }

  /** `r` is `s[a..b]` and everything outside `[a, b)` is white space. */
  predicate TrimmedAt(s: string, r: string, a: int, b: int)
  {
    && 0 <= a <= b <= |s| && r == s[a..b]
    && (forall i :: 0 <= i < a ==> IsJsSpace(s[i]))
    && (forall i :: b <= i < |s| ==> IsJsSpace(s[i]))
  }
}

=== FILE: pacing.dfy ===
/**
 * The pacing controller `decideProbabilities`: from the configuration, the
 * remaining stock, the higher tiers' total capacity, the redemption history and
 * the clock, the probability of each tier for the next sampled candidate.
 * Arithmetic is over exact reals; the server computes the same formulas in
 * IEEE doubles.
 */
module Pacing {
  import opened Basics
  import opened Tiers
  import opened Settings
  import opened Window

  /** Remaining stock of each level (`rem[level] || 0`). */
  datatype Stock = Stock(q1: nat, q2: nat, q3: nat, qc: nat)

  /** The probabilities together with the controller's intermediate values. */
  datatype Decision = Decision(probs: Probs, m: real, d: real, pna: real, pna0: real)

  /** Threshold below which `renormToNA` treats the higher tiers as exhausted. */
  const Epsilon: real := 0.000000001

  /** Increment applied to the higher-tier probability after a comfort-only streak. */
  const Boost: real := 0.12

  /** The collapsed split: nothing for the higher tiers, everything for comfort. */
  const AllComfort: Probs := Probs(0.0, 0.0, 0.0, 1.0)

  function HigherStock(s: Stock): nat { s.q1 + s.q2 + s.q3 }

  function StockOf(s: Stock, t: Tier): nat
  {
    match t
    case Tier1 => s.q1
    case Tier2 => s.q2
    case Tier3 => s.q3
    case Comfort => s.qc
  }

  /** `p_na0`: the fraction of all remaining stock that is higher-tier. */
  function BaseShare(s: Stock): (r: real)
    ensures 0.0 <= r <= 1.0
    ensures r == 0.0 <==> HigherStock(s) == 0
    ensures r == 1.0 <==> HigherStock(s) > 0 && s.qc == 0
    ensures HigherStock(s) + s.qc > 0 ==> r * (HigherStock(s) + s.qc) as real == HigherStock(s) as real
  {
    var total := HigherStock(s) + s.qc;
    if total > 0 then
      FractionFacts(HigherStock(s), total);
      HigherStock(s) as real / total as real
    else 0.0
  }

  /** A fraction a/b of naturals with a <= b lies in [0, 1], and is 0 or 1 exactly at the ends. */
  lemma FractionFacts(a: nat, b: nat)
    requires 0 < b && a <= b
    ensures 0.0 <= a as real / b as real <= 1.0
    ensures a as real / b as real == 0.0 <==> a == 0
    ensures a as real / b as real == 1.0 <==> a == b
    ensures (a as real / b as real) * b as real == a as real
  {
    var f := a as real / b as real;
    assert f * b as real == a as real;
  }

  /** `d_t`: how far issuance lags the target, in units of the active window's target. */
  function Deviation(w: WindowInfo, issued: int): (d: real)
    ensures w.windowTarget <= 0.0 ==> d == 0.0
  {
    if w.windowTarget > 0.0 then (w.targetCum - issued as real) / w.windowTarget else 0.0
  }

  /** With an active target, the deviation is positive exactly when issuance lags it, and scales back to the gap. */
  lemma DeviationMeasuresLag(w: WindowInfo, issued: int)
    requires w.windowTarget > 0.0
    ensures Deviation(w, issued) * w.windowTarget == w.targetCum - issued as real
    ensures Deviation(w, issued) > 0.0 <==> issued as real < w.targetCum
    ensures Deviation(w, issued) == 0.0 <==> issued as real == w.targetCum
  {
  }

  /** `m_t = max(m_min, min(m_max, 1 + alpha * d_t))`. */
  function Multiplier(cfg: Config, d: real): (m: real)
    ensures MMin(cfg) <= m
    ensures MMin(cfg) <= MMax(cfg) ==> m <= MMax(cfg)
    ensures MMin(cfg) <= 1.0 + Alpha(cfg) * d <= MMax(cfg) ==> m == 1.0 + Alpha(cfg) * d
    ensures MMin(cfg) <= MMax(cfg) < 1.0 + Alpha(cfg) * d ==> m == MMax(cfg)
    ensures 1.0 + Alpha(cfg) * d < MMin(cfg) ==> m == MMin(cfg)
    ensures MMax(cfg) < MMin(cfg) ==> m == MMin(cfg)
  {
    MaxReal(MMin(cfg), MinReal(MMax(cfg), 1.0 + Alpha(cfg) * d))
  }

  /** `p_na = max(pna_min, min(pna_max, m_t * p_na0))`. */
  function PacedShare(cfg: Config, m: real, pna0: real): (p: real)
    ensures PnaMin(cfg) <= p
    ensures PnaMin(cfg) <= PnaMax(cfg) ==> p <= PnaMax(cfg)
    ensures PnaMin(cfg) <= m * pna0 <= PnaMax(cfg) ==> p == m * pna0
    ensures PnaMin(cfg) <= PnaMax(cfg) < m * pna0 ==> p == PnaMax(cfg)
    ensures m * pna0 < PnaMin(cfg) ==> p == PnaMin(cfg)
    ensures PnaMax(cfg) < PnaMin(cfg) ==> p == PnaMin(cfg)
  {
    MaxReal(PnaMin(cfg), MinReal(PnaMax(cfg), m * pna0))
  }

  /** The levels of the `b` most recent redemptions (fewer when the ledger is shorter). */
  function Recent(levels: seq<Tier>, b: int): (r: seq<Tier>)
    requires b >= 1
    ensures |r| == MinInt(b, |levels|)
    ensures forall i :: 0 <= i < |r| ==> r[i] == levels[|levels| - |r| + i]
  {
    levels[|levels| - MinInt(b, |levels|)..]
  }

  /** The trailing window is (almost) full and holds fewer higher-tier hits than expected. */
  predicate Drought(cfg: Config, history: seq<Tier>)
    ensures Drought(cfg, history) <==>
      |history| >= SlideB(cfg) - 1 && (CountHigher(Recent(history, SlideB(cfg))) as real) < ExpectedHits(cfg)
    ensures Drought(cfg, history) ==> |history| >= SlideB(cfg) - 1
    ensures ExpectedHits(cfg) <= 0.0 ==> !Drought(cfg, history)
  {
    var last := Recent(history, SlideB(cfg));
    |last| >= SlideB(cfg) - 1 && (CountHigher(last) as real) < ExpectedHits(cfg)
  }

  /**
   * A run of consolation prizes filling the trailing window (or all but one
   * slot of it) always triggers the boost, as long as any hit is expected.
   */
  lemma ComfortStreakBoosts(cfg: Config, history: seq<Tier>)
    requires |history| >= SlideB(cfg) - 1 && ExpectedHits(cfg) > 0.0
    requires forall i :: |history| - MinInt(SlideB(cfg), |history|) <= i < |history| ==> history[i] == Comfort
    ensures Drought(cfg, history)
  {
    var last := Recent(history, SlideB(cfg));
    forall i | 0 <= i < |last|
      ensures last[i] == Comfort
    {
      assert last[i] == history[|history| - |last| + i];
    }
    AllComfortNoHits(last);
  }

  /** The sliding-window compensation applied to `p_na`. */
  function Boosted(cfg: Config, pna: real, history: seq<Tier>): (p: real)
    ensures !Drought(cfg, history) ==> p == pna
    ensures Drought(cfg, history) ==> p <= PnaMax(cfg)
    ensures Drought(cfg, history) && pna + Boost <= PnaMax(cfg) ==> p == pna + Boost
    ensures Drought(cfg, history) && pna + Boost > PnaMax(cfg) ==> p == PnaMax(cfg)
    ensures PnaMin(cfg) <= pna <= PnaMax(cfg) ==> PnaMin(cfg) <= p <= PnaMax(cfg)
  {
    if Drought(cfg, history) then MinReal(PnaMax(cfg), pna + Boost) else pna
  }

  /**
   * `renormToNA`: rescale the three higher-tier probabilities so that they sum to
   * `pna` again, or give everything to the comfort tier when they are (nearly) all zero.
   */
  function Renorm(p: Probs, pna: real): (r: Probs)
    ensures p.p1 + p.p2 + p.p3 > Epsilon ==> r.p1 + r.p2 + r.p3 == pna && r.pc == p.pc
    ensures p.p1 + p.p2 + p.p3 <= Epsilon ==> r == AllComfort
    ensures p.p1 == 0.0 ==> r.p1 == 0.0
    ensures p.p2 == 0.0 ==> r.p2 == 0.0
    ensures p.p3 == 0.0 ==> r.p3 == 0.0
  {
    var s := p.p1 + p.p2 + p.p3;
    if s > Epsilon then
      SumOfScaled(pna, p.p1, p.p2, p.p3);
      Probs(pna * (p.p1 / s), pna * (p.p2 / s), pna * (p.p3 / s), p.pc)
    else AllComfort
  }

  lemma SumOfScaled(pna: real, a: real, b: real, c: real)
    requires a + b + c != 0.0
    ensures pna * (a / (a + b + c)) + pna * (b / (a + b + c)) + pna * (c / (a + b + c)) == pna
  {
    var s := a + b + c;
    assert a / s + b / s + c / s == s / s == 1.0;
    assert pna * (a / s) + pna * (b / s) + pna * (c / s) == pna * (a / s + b / s + c / s);
  }

  /** Fraction of the higher-tier stock held by one tier (`w_i`). */
  function Weight(q: nat, n: nat): real
  {
    if n > 0 then q as real / n as real else 0.0
  }

  /** The probabilities with one higher tier's entry set to 0. */
  function Zeroed(p: Probs, t: Tier): Probs
  {
    match t
    case Tier1 => p.(p1 := 0.0)
    case Tier2 => p.(p2 := 0.0)
    case Tier3 => p.(p3 := 0.0)
    case Comfort => p
  }

  /** One line `if (Qi===0) { pi=0; renormToNA(); }` of the controller. */
  function Step(p: Probs, t: Tier, q: nat, pna: real): (r: Probs)
    ensures q > 0 ==> r == p
    ensures q == 0 && IsHigher(t) ==> r.Of(t) == 0.0
    ensures forall u :: IsHigher(u) && p.Of(u) == 0.0 ==> r.Of(u) == 0.0
  {
    if q == 0 then Renorm(Zeroed(p, t), pna) else p
  }

  /** Split `pna` over the higher tiers by remaining stock, then zero and renormalise the depleted ones. */
  function Split(s: Stock, pna: real): (r: Probs)
    ensures forall t :: IsHigher(t) && StockOf(s, t) == 0 ==> r.Of(t) == 0.0
  {
    Step(Step(Step(Initial(s, pna), Tier1, s.q1, pna), Tier2, s.q2, pna), Tier3, s.q3, pna)
  }

  /** `decideProbabilities(cfg)` with the database reads and the clock as parameters. */
  function DecideProbabilities(cfg: Config, s: Stock, totalsNA: int, history: seq<Tier>, now: int): (dec: Decision)
    ensures dec.pna0 == BaseShare(s)
    ensures dec.d == Deviation(WindowAndTargets(cfg, totalsNA, now), CountHigher(history))
    ensures dec.m == Multiplier(cfg, dec.d)
    ensures dec.pna == Boosted(cfg, PacedShare(cfg, dec.m, dec.pna0), history)
    ensures dec.probs == Split(s, dec.pna)
    ensures 0.0 <= dec.pna0 <= 1.0
    ensures MMin(cfg) <= dec.m && (MMin(cfg) <= MMax(cfg) ==> dec.m <= MMax(cfg))
    ensures PnaMin(cfg) <= PnaMax(cfg) ==> PnaMin(cfg) <= dec.pna <= PnaMax(cfg)
    ensures WindowAndTargets(cfg, totalsNA, now).windowTarget <= 0.0 ==> dec.d == 0.0
  {
    var pna0 := BaseShare(s);
    var win := WindowAndTargets(cfg, totalsNA, now);
    var d := Deviation(win, CountHigher(history));
    var m := Multiplier(cfg, d);
    var pna := Boosted(cfg, PacedShare(cfg, m, pna0), history);
    Decision(Split(s, pna), m, d, pna, pna0)
  }

  // ---------------------------------------------------------------------------
  // Properties of the split

  /** The split is exactly proportional to remaining stock unless it collapses to comfort. */
  predicate Proportional(s: Stock, pna: real)
  {
    HigherStock(s) > 0 && (pna > Epsilon || (s.q1 > 0 && s.q2 > 0 && s.q3 > 0))
  }

  lemma WeightsSumToOne(s: Stock)
    requires HigherStock(s) > 0
    ensures var n := HigherStock(s); Weight(s.q1, n) + Weight(s.q2, n) + Weight(s.q3, n) == 1.0
  {
    var n := HigherStock(s) as real;
    assert s.q1 as real / n + s.q2 as real / n + s.q3 as real / n == (s.q1 + s.q2 + s.q3) as real / n;
  }

  /** Renormalising probabilities that already sum to `pna` changes nothing. */
  lemma RenormKeeps(p: Probs, pna: real)
    requires p.p1 + p.p2 + p.p3 == pna > Epsilon
    ensures Renorm(p, pna) == p
  {
    assert pna * (p.p1 / pna) == p.p1;
    assert pna * (p.p2 / pna) == p.p2;
    assert pna * (p.p3 / pna) == p.p3;
  }

  /** The proportional initial split, before any depleted tier is handled. */
  function Initial(s: Stock, pna: real): (r: Probs)
    ensures r.pc == 1.0 - pna
    ensures forall t :: IsHigher(t) && StockOf(s, t) == 0 ==> r.Of(t) == 0.0
  {
    var n := HigherStock(s);
    Probs(pna * Weight(s.q1, n), pna * Weight(s.q2, n), pna * Weight(s.q3, n), 1.0 - pna)
  }

  lemma InitialSum(s: Stock, pna: real)
    requires HigherStock(s) > 0
    ensures var p := Initial(s, pna); p.p1 + p.p2 + p.p3 == pna
  {
    var n := HigherStock(s);
    WeightsSumToOne(s);
    assert pna * Weight(s.q1, n) + pna * Weight(s.q2, n) + pna * Weight(s.q3, n)
        == pna * (Weight(s.q1, n) + Weight(s.q2, n) + Weight(s.q3, n));
  }

  /**
   * Closed form of the split: `pna` shared out in proportion to the remaining
   * higher-tier stock, or, when there is none (or a depleted tier forces a
   * renormalisation of a share at most Epsilon), everything to comfort.
   */
  lemma {:induction false} SplitClosedForm(s: Stock, pna: real)
    ensures Proportional(s, pna) ==> Split(s, pna) == Initial(s, pna)
    ensures !Proportional(s, pna) ==> Split(s, pna) == AllComfort
  {
    if HigherStock(s) == 0 {
      SplitCollapses(s, pna);
    } else if s.q1 > 0 && s.q2 > 0 && s.q3 > 0 {
    } else if pna > Epsilon {
      SplitRenormalisesToItself(s, pna);
    } else {
      SplitCollapses(s, pna);
    }
  }

  /** A step for a tier whose entry is already 0 leaves a split summing to `pna` untouched. */
  lemma StepKeeps(p: Probs, t: Tier, q: nat, pna: real)
    requires p.p1 + p.p2 + p.p3 == pna > Epsilon
    requires q == 0 ==> p.Of(t) == 0.0 && IsHigher(t)
    ensures Step(p, t, q, pna) == p
  {
    if q == 0 {
      assert Zeroed(p, t) == p;
      RenormKeeps(p, pna);
    }
  }

  /** Once collapsed, the split stays collapsed. */
  lemma StepKeepsCollapsed(t: Tier, q: nat, pna: real)
    ensures Step(AllComfort, t, q, pna) == AllComfort
  {
    assert Zeroed(AllComfort, t) == AllComfort;
  }

  /** Zeroing a tier that leaves at most Epsilon collapses the split. */
  lemma StepCollapses(p: Probs, t: Tier, pna: real)
    requires var z := Zeroed(p, t); z.p1 + z.p2 + z.p3 <= Epsilon
    ensures Step(p, t, 0, pna) == AllComfort
  {
  }

  /** A depleted tier's initial entry is already 0. */
  lemma InitialOfDepleted(s: Stock, pna: real, t: Tier)
    requires IsHigher(t) && StockOf(s, t) == 0
    ensures Initial(s, pna).Of(t) == 0.0 && Zeroed(Initial(s, pna), t) == Initial(s, pna)
  {
  }

  lemma SplitRenormalisesToItself(s: Stock, pna: real)
    requires HigherStock(s) > 0 && pna > Epsilon
    ensures Split(s, pna) == Initial(s, pna)
  {
    var p := Initial(s, pna);
    InitialSum(s, pna);
    if s.q1 == 0 { InitialOfDepleted(s, pna, Tier1); }
    if s.q2 == 0 { InitialOfDepleted(s, pna, Tier2); }
    if s.q3 == 0 { InitialOfDepleted(s, pna, Tier3); }
    StepKeeps(p, Tier1, s.q1, pna);
    StepKeeps(p, Tier2, s.q2, pna);
    StepKeeps(p, Tier3, s.q3, pna);
  }

  lemma SplitCollapses(s: Stock, pna: real)
    requires !Proportional(s, pna)
    ensures Split(s, pna) == AllComfort
  {
    var p := Initial(s, pna);
    if HigherStock(s) == 0 {
      InitialOfDepleted(s, pna, Tier1);
      StepCollapses(p, Tier1, pna);
      StepKeepsCollapsed(Tier2, s.q2, pna);
      StepKeepsCollapsed(Tier3, s.q3, pna);
    } else {
      InitialSum(s, pna);
      if s.q1 == 0 {
        InitialOfDepleted(s, pna, Tier1);
        StepCollapses(p, Tier1, pna);
        StepKeepsCollapsed(Tier2, s.q2, pna);
        StepKeepsCollapsed(Tier3, s.q3, pna);
      } else if s.q2 == 0 {
        InitialOfDepleted(s, pna, Tier2);
        StepCollapses(p, Tier2, pna);
        StepKeepsCollapsed(Tier3, s.q3, pna);
      } else {
        InitialOfDepleted(s, pna, Tier3);
        StepCollapses(p, Tier3, pna);
      }
    }
  }

  /** Tier by tier: in the proportional case each higher tier gets `pna` times its stock share. */
  lemma SplitOf(s: Stock, pna: real, t: Tier)
    ensures Proportional(s, pna) && IsHigher(t) ==>
      Split(s, pna).Of(t) == pna * Weight(StockOf(s, t), HigherStock(s))
    ensures Proportional(s, pna) ==> Split(s, pna).pc == 1.0 - pna
    ensures !Proportional(s, pna) ==> Split(s, pna).Of(t) == (if IsHigher(t) then 0.0 else 1.0)
  {
    SplitClosedForm(s, pna);
  }

  /** A tier's stock share is a fraction. */
  lemma WeightInUnit(q: nat, n: nat)
    requires q <= n
    ensures 0.0 <= Weight(q, n) <= 1.0
  {
    if n > 0 {
      assert q as real / n as real <= n as real / n as real;
    }
  }

  /** In the proportional case the split stays within [0, 1] when `pna` does. */
  lemma InitialWithinUnit(s: Stock, pna: real, t: Tier)
    requires 0.0 <= pna <= 1.0
    ensures 0.0 <= Initial(s, pna).Of(t) <= 1.0
  {
    if IsHigher(t) {
      var w := Weight(StockOf(s, t), HigherStock(s));
      WeightInUnit(StockOf(s, t), HigherStock(s));
      assert Initial(s, pna).Of(t) == pna * w;
      assert pna * w <= pna * 1.0;
    }
  }

  // ---------------------------------------------------------------------------
  // Properties of the controller

  /** Over exact reals the four probabilities always sum to 1. */
  lemma ProbabilitiesSumToOne(cfg: Config, s: Stock, totalsNA: int, history: seq<Tier>, now: int)
    ensures DecideProbabilities(cfg, s, totalsNA, history, now).probs.Total() == 1.0
  {
    var pna := DecideProbabilities(cfg, s, totalsNA, history, now).pna;
    SplitClosedForm(s, pna);
    if Proportional(s, pna) {
      InitialSum(s, pna);
    }
  }

  /** A tier with no remaining stock gets probability exactly 0. */
  lemma DepletedTierNeverOffered(cfg: Config, s: Stock, totalsNA: int, history: seq<Tier>, now: int, t: Tier)
    requires IsHigher(t) && StockOf(s, t) == 0
    ensures DecideProbabilities(cfg, s, totalsNA, history, now).probs.Of(t) == 0.0
  {
    var pna := DecideProbabilities(cfg, s, totalsNA, history, now).pna;
    SplitClosedForm(s, pna);
  }

  /** With no higher-tier stock left, the comfort tier gets probability 1. */
  lemma NoHigherStockAllComfort(cfg: Config, s: Stock, totalsNA: int, history: seq<Tier>, now: int)
    requires HigherStock(s) == 0
    ensures DecideProbabilities(cfg, s, totalsNA, history, now).probs == AllComfort
  {
    var pna := DecideProbabilities(cfg, s, totalsNA, history, now).pna;
    SplitClosedForm(s, pna);
  }

  /** Each higher tier's probability is `p_na` times its share of the remaining higher-tier stock. */
  lemma ProportionalToStock(cfg: Config, s: Stock, totalsNA: int, history: seq<Tier>, now: int)
    requires Proportional(s, DecideProbabilities(cfg, s, totalsNA, history, now).pna)
    ensures var dec := DecideProbabilities(cfg, s, totalsNA, history, now);
      dec.probs == Initial(s, dec.pna)
  {
    var dec := DecideProbabilities(cfg, s, totalsNA, history, now);
    SplitClosedForm(s, dec.pna);
  }

  /**
   * Depletion redistributes: with tier 2 exhausted (and stock left in tiers 1 or 3),
   * tiers 1 and 3 share all of `p_na` between them.
   */
  lemma DepletionRedistributes(cfg: Config, s: Stock, totalsNA: int, history: seq<Tier>, now: int)
    requires s.q2 == 0 && s.q1 + s.q3 > 0
    requires DecideProbabilities(cfg, s, totalsNA, history, now).pna > Epsilon
    ensures var dec := DecideProbabilities(cfg, s, totalsNA, history, now);
      dec.probs.p2 == 0.0 && dec.probs.p1 + dec.probs.p3 == dec.pna
  {
    var pna := DecideProbabilities(cfg, s, totalsNA, history, now).pna;
    SplitClosedForm(s, pna);
    InitialSum(s, pna);
  }

  /** With sane bounds (0 <= pna_min <= pna_max <= 1) every probability lies in [0, 1]. */
  lemma ProbabilitiesInUnitRange(cfg: Config, s: Stock, totalsNA: int, history: seq<Tier>, now: int, t: Tier)
    requires 0.0 <= PnaMin(cfg) <= PnaMax(cfg) <= 1.0
    ensures 0.0 <= DecideProbabilities(cfg, s, totalsNA, history, now).probs.Of(t) <= 1.0
  {
    var dec := DecideProbabilities(cfg, s, totalsNA, history, now);
    assert dec.probs == Split(s, dec.pna);
    assert 0.0 <= dec.pna <= 1.0;
    SplitWithinUnit(s, dec.pna, t);
  }

  lemma SplitWithinUnit(s: Stock, pna: real, t: Tier)
    requires 0.0 <= pna <= 1.0
    ensures 0.0 <= Split(s, pna).Of(t) <= 1.0
  {
    SplitClosedForm(s, pna);
    if Proportional(s, pna) {
      InitialWithinUnit(s, pna, t);
    }
  }

  /**
   * Just after the start, with nothing issued yet, the controller does not pace:
   * d = 0, m = 1, and without a comfort streak p_na is the stock-implied share
   * (when that share lies within the clamp bounds).
   */
  lemma FreshStartIsUnpaced(cfg: Config, s: Stock, totalsNA: int, history: seq<Tier>, now: int)
    requires Started(cfg) && cfg.durationMin >= 0 && now <= cfg.startTs + 59999
    requires CountHigher(history) == 0
    requires MMin(cfg) <= 1.0 <= MMax(cfg)
    ensures var dec := DecideProbabilities(cfg, s, totalsNA, history, now);
      dec.d == 0.0 && dec.m == 1.0
      && (PnaMin(cfg) <= dec.pna0 <= PnaMax(cfg) && !Drought(cfg, history) ==> dec.pna == dec.pna0)
  {
    TargetStartsAtZero(cfg, totalsNA, now);
  }
}

=== FILE: proposals.dfy ===
/**
 * The candidate list that `startDraw` shows an employee: how many candidates,
 * how they are sampled, and the override that guarantees one employee a
 * first prize while first prizes remain.
 */
module Proposals {
  import opened Basics
  import opened Tiers
  import opened Sampler

  /** The employee number the override applies to, compared after trimming. */
  const VipEmpId: string := "131860"

  /** `Math.max(1, Math.min(5, Number(count) || 1))` for an integer count. */
  function DrawCount(count: int): (n: int)
    ensures 1 <= n <= 5
    ensures 1 <= count <= 5 ==> n == count
    ensures count > 5 ==> n == 5
    ensures count <= 0 ==> n == 1
  {
    MaxInt(1, MinInt(5, OrInt(count, 1)))
  }

  /** One candidate per uniform number, each sampled independently. */
  function SampleAll(probs: Probs, rs: seq<real>): (options: seq<Tier>)
    ensures |options| == |rs|
    ensures forall i :: 0 <= i < |rs| ==> options[i] == Sample(probs, rs[i])
  {
    if rs == [] then [] else SampleAll(probs, rs[..|rs| - 1]) + [Sample(probs, rs[|rs| - 1])]
  }

  /** The sampling loop of `startDraw`: push one sampled level per uniform number. */
  method SampleOptions(probs: Probs, rs: seq<real>) returns (options: seq<Tier>)
    ensures options == SampleAll(probs, rs)
  {
    options := [];
    var i := 0;
    while i < |rs|
      invariant 0 <= i <= |rs|
      invariant |options| == i
      invariant forall j :: 0 <= j < i ==> options[j] == Sample(probs, rs[j])
    {
      options := options + [Sample(probs, rs[i])];
      i := i + 1;
    }
  }

  /** The employee number, trimmed, is the VIP number. */
  predicate IsVip(empId: string)
    ensures empId == VipEmpId ==> IsVip(empId)
    ensures IsVip(empId) ==> |empId| >= |VipEmpId|
  {
    VipEmpIdIsTrimmed();
    Trim(empId) == VipEmpId
  }

  /** The VIP number has no white space to trim. */
  lemma VipEmpIdIsTrimmed()
    ensures Trim(VipEmpId) == VipEmpId
  {
    assert !IsJsSpace(VipEmpId[0]);
    assert TrimStart(VipEmpId) == VipEmpId;
    assert !IsJsSpace(VipEmpId[|VipEmpId| - 1]);
    assert TrimEnd(VipEmpId) == VipEmpId;
  }

  /** `Math.floor(Math.random() * options.length)`: the slot the override rewrites. */
  function VipSlot(vipR: real, n: nat): (k: int)
    requires 0.0 <= vipR < 1.0 && n > 0
    ensures 0 <= k < n
    ensures k as real <= vipR * n as real < k as real + 1.0
  {
    var x := vipR * n as real;
    assert x < n as real by {
      assert vipR * n as real < 1.0 * n as real;
    }
    x.Floor
  }

  /** The override fires for the VIP employee, while first prizes remain, when no candidate is a first prize. */
  predicate OverrideApplies(empId: string, q1Remain: int, options: seq<Tier>)
  {
    IsVip(empId) && q1Remain > 0 && Tier1 !in options
  }

  function CountOf(options: seq<Tier>, t: Tier): nat
  {
    multiset(options)[t]
  }

  /**
   * The VIP override: when it applies, the candidate in the chosen slot becomes
   * a first prize; otherwise the list is returned untouched.
   */
  function VipOverride(empId: string, q1Remain: int, options: seq<Tier>, vipR: real): (r: seq<Tier>)
    requires 0.0 <= vipR < 1.0 && |options| > 0
    ensures |r| == |options|
    ensures !OverrideApplies(empId, q1Remain, options) ==> r == options
    ensures OverrideApplies(empId, q1Remain, options) ==>
      CountOf(r, Tier1) == 1
      && forall i :: 0 <= i < |r| && i != VipSlot(vipR, |options|) ==> r[i] == options[i]
    ensures forall i :: 0 <= i < |r| && r[i] != options[i] ==> r[i] == Tier1
  {
    if OverrideApplies(empId, q1Remain, options) then
      var k := VipSlot(vipR, |options|);
      PlacedOnce(options, k, Tier1);
      options[k := Tier1]
    else options
  }

  /** Writing an absent tier into one slot leaves exactly one copy of it. */
  lemma PlacedOnce(options: seq<Tier>, k: int, t: Tier)
    requires 0 <= k < |options| && t !in options
    ensures CountOf(options[k := t], t) == 1
  {
    assert multiset(options)[t] == 0;
    assert multiset(options[k := t]) == multiset(options) - multiset{options[k]} + multiset{t};
  }

  /**
   * The candidate list of `startDraw` for given probabilities: every slot is
   * its own sample, except that the VIP slot may have become a first prize.
   */
  function Offered(probs: Probs, empId: string, q1Remain: int, rs: seq<real>, vipR: real): (options: seq<Tier>)
    requires |rs| > 0 && 0.0 <= vipR < 1.0
    ensures |options| == |rs|
    ensures IsVip(empId) && q1Remain > 0 ==> Tier1 in options
    ensures forall i :: 0 <= i < |rs| ==>
      options[i] == Sample(probs, rs[i]) || (options[i] == Tier1 && i == VipSlot(vipR, |rs|))
  {
    var sampled := SampleAll(probs, rs);
    if IsVip(empId) && q1Remain > 0 then
      VipAlwaysOfferedFirst(empId, q1Remain, sampled, vipR);
      VipOverride(empId, q1Remain, sampled, vipR)
    else VipOverride(empId, q1Remain, sampled, vipR)
  }

  /** After the override, a VIP with first prizes remaining always has a first-prize candidate. */
  lemma VipAlwaysOfferedFirst(empId: string, q1Remain: int, options: seq<Tier>, vipR: real)
    requires 0.0 <= vipR < 1.0 && |options| > 0
    requires IsVip(empId) && q1Remain > 0
    ensures Tier1 in VipOverride(empId, q1Remain, options, vipR)
  {
    var r := VipOverride(empId, q1Remain, options, vipR);
    if Tier1 !in options {
      assert r[VipSlot(vipR, |options|)] == Tier1;
    }
  }
}

=== FILE: sampler.dfy ===
/**
 * `sampleByProbs`: one candidate level drawn from the controller's
 * probabilities. The uniform number `r` from `Math.random()` is a parameter;
 * the unit interval is cut into consecutive bands of widths p1, p2, p3 and
 * the rest.
 */
module Sampler {
  import opened Tiers
  import opened Pacing
  import opened Settings

  /**
   * The band of [0, 1) that `r` falls into. The first match wins, so the
   * bands are exact only when the widths are non-negative.
   */
  function Sample(p: Probs, r: real): (t: Tier)
    ensures t == Tier1 <==> r < p.p1
    ensures t == Tier2 <==> p.p1 <= r < p.p1 + p.p2
    ensures t == Tier3 ==> p.p1 + p.p2 <= r < p.p1 + p.p2 + p.p3
    ensures t == Comfort ==> p.p1 + p.p2 + p.p3 <= r
    ensures p.p1 >= 0.0 && p.p2 >= 0.0 ==>
      (t == Tier3 <==> p.p1 + p.p2 <= r < p.p1 + p.p2 + p.p3)
    ensures p.p1 >= 0.0 && p.p2 >= 0.0 && p.p3 >= 0.0 ==>
      (t == Comfort <==> p.p1 + p.p2 + p.p3 <= r)
  {
    if r < p.p1 then Tier1
    else if r < p.p1 + p.p2 then Tier2
    else if r < p.p1 + p.p2 + p.p3 then Tier3
    else Comfort
  }

  /**
   * With non-negative probabilities summing to 1 and `0 <= r < 1`, the sampled
   * level always has positive probability: a level with probability 0 is never drawn.
   */
  lemma SampledHasPositiveProbability(p: Probs, r: real)
    requires p.p1 >= 0.0 && p.p2 >= 0.0 && p.p3 >= 0.0 && p.pc >= 0.0
    requires p.Total() == 1.0
    requires 0.0 <= r < 1.0
    ensures p.Of(Sample(p, r)) > 0.0
  {
    var t := Sample(p, r);
    if t == Comfort {
      assert p.pc == 1.0 - (p.p1 + p.p2 + p.p3);
    }
  }

  /**
   * End to end: a higher level sampled from the controller's probabilities
   * always has remaining stock, whatever the configured bounds: a depleted
   * tier's band has width 0 and no `r >= 0` falls in it. (Stock can still
   * run out between the draw and the confirmation, which the confirmation
   * re-checks.)
   */
  lemma SampledHigherTierInStock(cfg: Config, s: Stock, totalsNA: int, history: seq<Tier>, now: int, r: real)
    requires 0.0 <= r < 1.0
    ensures var t := Sample(DecideProbabilities(cfg, s, totalsNA, history, now).probs, r);
      IsHigher(t) ==> StockOf(s, t) > 0
  {
    var p := DecideProbabilities(cfg, s, totalsNA, history, now).probs;
    var t := Sample(p, r);
    if IsHigher(t) && StockOf(s, t) == 0 {
      DepletedTierNeverOffered(cfg, s, totalsNA, history, now, t);
      assert false;
    }
  }
}

=== FILE: settings.dfy ===
/**
 * The singleton pacing configuration row and the defaults the controller
 * falls back to. A configured value of 0 (or NULL, which every use coerces
 * the same way) silently becomes the default, because the server reads each
 * setting through JavaScript's `||`.
 */
module Settings {
  import opened Basics

  datatype Config = Config(
    startTs: int,        // ms since the epoch; 0 means "not started"
    durationMin: int,    // length of the whole event in minutes
    share1: real,        // share of the higher-tier capacity targeted in each third
    share2: real,
    share3: real,
    alpha: real,         // responsiveness of the pacing multiplier
    mMin: real,          // clamp bounds of the pacing multiplier
    mMax: real,
    pnaMin: real,        // clamp bounds of the higher-tier probability
    pnaMax: real,
    slideB: int,         // size of the trailing window of recent draws
    slideTarget: real)   // higher-tier hits expected in that window

  /** The row inserted on first boot. */
  const Seeded: Config := Config(0, 180, 0.40, 0.35, 0.25, 1.0, 0.6, 1.6, 0.10, 0.60, 10, 2.0)

  predicate Started(cfg: Config) { cfg.startTs != 0 }

  function Duration(cfg: Config): (d: int)
    ensures d == cfg.durationMin || (cfg.durationMin == 0 && d == 180)
  {
    OrInt(cfg.durationMin, 180)
  }

  /** Length of one of the three sub-windows: `Math.floor(duration / 3) || 60`. */
  function WinLen(cfg: Config): (l: int)
    ensures l != 0
    ensures cfg.durationMin >= 0 ==> l > 0
    ensures Duration(cfg) >= 3 ==> 3 * l <= Duration(cfg) < 3 * l + 3
    ensures 0 <= Duration(cfg) < 3 ==> l == 60
  {
    OrInt(Duration(cfg) / 3, 60)
  }

  function Alpha(cfg: Config): real { OrReal(cfg.alpha, 1.0) }
  function MMin(cfg: Config): real { OrReal(cfg.mMin, 0.6) }
  function MMax(cfg: Config): real { OrReal(cfg.mMax, 1.6) }
  function PnaMin(cfg: Config): real { OrReal(cfg.pnaMin, 0.10) }
  function PnaMax(cfg: Config): real { OrReal(cfg.pnaMax, 0.60) }

  /** `Math.max(1, cfg.slide_B || 10)`. */
  function SlideB(cfg: Config): (b: int)
    ensures b >= 1
    ensures cfg.slideB >= 1 ==> b == cfg.slideB
    ensures cfg.slideB == 0 ==> b == 10
  {
    MaxInt(1, OrInt(cfg.slideB, 10))
  }

  /** `Math.min(cfg.slide_target || 2.0, B)`. */
  function ExpectedHits(cfg: Config): (e: real)
    ensures e <= SlideB(cfg) as real
    ensures cfg.slideTarget != 0.0 && cfg.slideTarget <= SlideB(cfg) as real ==> e == cfg.slideTarget
    ensures cfg.slideTarget == 0.0 ==> e == MinReal(2.0, SlideB(cfg) as real)
    ensures cfg.slideTarget > SlideB(cfg) as real ==> e == SlideB(cfg) as real
  {
    MinReal(OrReal(cfg.slideTarget, 2.0), SlideB(cfg) as real)
  }
}

=== FILE: store.dfy ===
/**
 * The draw/redemption store behind the staff endpoints: the prize stock, the
 * redemption ledger (`draws`), the participants with their lock flag and the
 * draw sessions with their used flag, plus the pacing configuration row.
 * The SQLite tables become fields; each prepared statement the endpoints use
 * becomes a small method, and each endpoint a method composed of them.
 * Identifiers from `nanoid()`, `Date.now()` and `Math.random()` are parameters.
 */
module Store {
  import opened Basics
  import opened Tiers
  import opened Settings
  import opened Pacing
  import opened Sampler
  import opened Proposals

  /** The reasons the endpoints reject a request, in the order they are checked. */
  datatype Error =
    | Validation          // 400: empId, sessionId or chosenIndex missing
    | AlreadyLocked       // 409: the employee has already redeemed a prize
    | SessionNotFound     // 404
    | SessionAlreadyUsed  // 409
    | InvalidChoice       // 400: chosenIndex outside the candidate list
    | OutOfStock          // 409: the chosen level has no remaining stock
    | DuplicateKey        // a generated id collides with an existing row (the insert throws)

  datatype Prize = Prize(total: int, remaining: int)

  datatype Participant = Participant(name: Option<string>, locked: bool, firstTs: int)

  datatype Session = Session(empId: string, empName: Option<string>, options: seq<Tier>, ts: int, used: bool)

  datatype Draw = Draw(
    id: string, ts: int, operator: Option<string>, clientId: Option<string>,
    empName: Option<string>, empId: Option<string>, level: Tier)

  /** What `startDraw` returns on success. */
  datatype Proposal = Proposal(sessionId: string, options: seq<Tier>)

  /** What `confirmChoice` returns on success. */
  datatype Receipt = Receipt(drawId: string, level: Tier)

  // ---------------------------------------------------------------------------
  // Views of the tables the controller reads

  /** Every prize row has 0 <= remaining <= total. */
  predicate PrizesValid(prizes: map<Tier, Prize>)
  {
    forall t :: t in prizes ==> 0 <= prizes[t].remaining <= prizes[t].total
  }

  /** `rem[level] || 0`. */
  function Remaining(prizes: map<Tier, Prize>, t: Tier): int
  {
    if t in prizes then prizes[t].remaining else 0
  }

  function StockIn(prizes: map<Tier, Prize>): (s: Stock)
    requires PrizesValid(prizes)
    ensures forall t :: StockOf(s, t) == Remaining(prizes, t)
  {
    Stock(Remaining(prizes, Tier1), Remaining(prizes, Tier2), Remaining(prizes, Tier3), Remaining(prizes, Comfort))
  }

  function TotalOf(prizes: map<Tier, Prize>, t: Tier): int
  {
    if t in prizes then prizes[t].total else 0
  }

  /** `SELECT SUM(total) ... WHERE level IN (higher tiers)`, 0 when there are none. */
  function TotalsNA(prizes: map<Tier, Prize>): (n: int)
    ensures PrizesValid(prizes) ==> n >= 0
    ensures Tier1 !in prizes && Tier2 !in prizes && Tier3 !in prizes ==> n == 0
  {
    TotalOf(prizes, Tier1) + TotalOf(prizes, Tier2) + TotalOf(prizes, Tier3)
  }

  /** The levels of the ledger, oldest first. */
  function Levels(ledger: seq<Draw>): (levels: seq<Tier>)
    ensures |levels| == |ledger|
    ensures forall i :: 0 <= i < |ledger| ==> levels[i] == ledger[i].level
  {
    if ledger == [] then [] else Levels(ledger[..|ledger| - 1]) + [ledger[|ledger| - 1].level]
  }

  /** Number of ledger rows at one level. */
  function Issued(ledger: seq<Draw>, t: Tier): (n: nat)
    ensures n <= |ledger|
  {
    if ledger == [] then 0
    else Issued(ledger[..|ledger| - 1], t) + (if ledger[|ledger| - 1].level == t then 1 else 0)
  }

  lemma IssuedAppend(ledger: seq<Draw>, d: Draw, t: Tier)
    ensures Issued(ledger + [d], t) == Issued(ledger, t) + (if d.level == t then 1 else 0)
  {
    assert (ledger + [d])[..|ledger|] == ledger;
  }

  /**
   * Stock is conserved: at every level with a prize row, the remaining stock
   * plus the ledger rows redeemed at that level make up the total, and every
   * ledger row is at such a level.
   */
  predicate StockAccounted(prizes: map<Tier, Prize>, ledger: seq<Draw>)
  {
    && (forall t :: t in prizes ==> prizes[t].remaining + Issued(ledger, t) == prizes[t].total)
    && (forall i :: 0 <= i < |ledger| ==> ledger[i].level in prizes)
  }

  /** Decrementing a level's stock while appending one row at that level keeps stock conserved. */
  lemma RedeemKeepsStock(prizes: map<Tier, Prize>, ledger: seq<Draw>, d: Draw)
    requires PrizesValid(prizes) && StockAccounted(prizes, ledger)
    requires d.level in prizes && prizes[d.level].remaining > 0
    ensures var p := prizes[d.level := prizes[d.level].(remaining := prizes[d.level].remaining - 1)];
      PrizesValid(p) && StockAccounted(p, ledger + [d])
  {
    var p := prizes[d.level := prizes[d.level].(remaining := prizes[d.level].remaining - 1)];
    forall t | t in p ensures p[t].remaining + Issued(ledger + [d], t) == p[t].total {
      IssuedAppend(ledger, d, t);
    }
    forall i | 0 <= i < |ledger + [d]| ensures (ledger + [d])[i].level in p {
      if i < |ledger| {
        assert (ledger + [d])[i] == ledger[i];
      }
    }
  }

  predicate HasDrawId(ledger: seq<Draw>, id: string)
  {
    exists i :: 0 <= i < |ledger| && ledger[i].id == id
  }

  /** The controller's decision on the current tables. */
  function Probabilities(cfg: Config, prizes: map<Tier, Prize>, ledger: seq<Draw>, now: int): (dec: Decision)
    requires PrizesValid(prizes)
    ensures dec.probs.Total() == 1.0
    ensures forall t :: IsHigher(t) && Remaining(prizes, t) == 0 ==> dec.probs.Of(t) == 0.0
  {
    ProbabilitiesSumToOne(cfg, StockIn(prizes), TotalsNA(prizes), Levels(ledger), now);
    DecideProbabilities(cfg, StockIn(prizes), TotalsNA(prizes), Levels(ledger), now)
  }

  /** The candidates `startDraw` proposes: sampled from the controller's probabilities, then the VIP override. */
  function Proposed(cfg: Config, prizes: map<Tier, Prize>, ledger: seq<Draw>, empId: string, now: int,
                    rs: seq<real>, vipR: real): (options: seq<Tier>)
    requires PrizesValid(prizes)
    requires |rs| > 0 && 0.0 <= vipR < 1.0
    ensures |options| == |rs|
    ensures IsVip(empId) && Remaining(prizes, Tier1) > 0 ==> Tier1 in options
    ensures options == Offered(Probabilities(cfg, prizes, ledger, now).probs, empId, Remaining(prizes, Tier1), rs, vipR)
  {
    Offered(Probabilities(cfg, prizes, ledger, now).probs, empId, Remaining(prizes, Tier1), rs, vipR)
  }

  /** `upsertPartNew`: insert an unlocked participant, or only refresh the stored name. */
  function Upserted(participants: map<string, Participant>, empId: string, empName: string, now: int): (r: map<string, Participant>)
    ensures r.Keys == participants.Keys + {empId}
    ensures r[empId].name == NonEmpty(empName)
    ensures empId in participants ==>
      r[empId].locked == participants[empId].locked && r[empId].firstTs == participants[empId].firstTs
    ensures empId !in participants ==> !r[empId].locked && r[empId].firstTs == now
    ensures forall k :: k in participants && k != empId ==> r[k] == participants[k]
  {
    if empId in participants then participants[empId := participants[empId].(name := NonEmpty(empName))]
    else participants[empId := Participant(NonEmpty(empName), false, now)]
  }

  /**
   * Every check of `confirmChoice` before the stock check passes: the request
   * names a session and an index, the session exists and is unused, its
   * employee is not locked, and the index is within its candidate list.
   */
  predicate ChoiceOpen(participants: map<string, Participant>, sessions: map<string, Session>,
                       sessionId: string, chosenIndex: Option<int>)
  {
    && sessionId != "" && chosenIndex.Some? && sessionId in sessions
    && !sessions[sessionId].used
    && !(sessions[sessionId].empId in participants && participants[sessions[sessionId].empId].locked)
    && 0 <= chosenIndex.value < |sessions[sessionId].options|
  }

  /**
   * The checks of `confirmChoice`, in the order the endpoint makes them, on the
   * state before the request: the first failing one, or None.
   */
  function ConfirmVerdict(prizes: map<Tier, Prize>, ledger: seq<Draw>, participants: map<string, Participant>,
                          sessions: map<string, Session>, sessionId: string, chosenIndex: Option<int>,
                          drawId: string): (v: Option<Error>)
    ensures sessionId == "" || chosenIndex.None? ==> v == Some(Validation)
    ensures sessionId != "" && chosenIndex.Some? && sessionId !in sessions ==> v == Some(SessionNotFound)
    ensures sessionId != "" && chosenIndex.Some? && sessionId in sessions && sessions[sessionId].used ==>
      v == Some(SessionAlreadyUsed)
    ensures (sessionId != "" && chosenIndex.Some? && sessionId in sessions && !sessions[sessionId].used
             && sessions[sessionId].empId in participants && participants[sessions[sessionId].empId].locked) ==>
      v == Some(AlreadyLocked)
    ensures (sessionId != "" && chosenIndex.Some? && sessionId in sessions && !sessions[sessionId].used
             && !(sessions[sessionId].empId in participants && participants[sessions[sessionId].empId].locked)
             && !(0 <= chosenIndex.value < |sessions[sessionId].options|)) ==>
      v == Some(InvalidChoice)
    ensures v == Some(OutOfStock) <==>
      ChoiceOpen(participants, sessions, sessionId, chosenIndex)
      && Remaining(prizes, sessions[sessionId].options[chosenIndex.value]) <= 0
    ensures v == Some(DuplicateKey) <==>
      ChoiceOpen(participants, sessions, sessionId, chosenIndex)
      && Remaining(prizes, sessions[sessionId].options[chosenIndex.value]) > 0
      && HasDrawId(ledger, drawId)
    ensures v == None <==>
      ChoiceOpen(participants, sessions, sessionId, chosenIndex)
      && Remaining(prizes, sessions[sessionId].options[chosenIndex.value]) > 0
      && !HasDrawId(ledger, drawId)
  {
    if sessionId == "" || chosenIndex.None? then Some(Validation)
    else if sessionId !in sessions then Some(SessionNotFound)
    else if sessions[sessionId].used then Some(SessionAlreadyUsed)
    else if sessions[sessionId].empId in participants && participants[sessions[sessionId].empId].locked then Some(AlreadyLocked)
    else if !(0 <= chosenIndex.value < |sessions[sessionId].options|) then Some(InvalidChoice)
    else if Remaining(prizes, sessions[sessionId].options[chosenIndex.value]) <= 0 then Some(OutOfStock)
    else if HasDrawId(ledger, drawId) then Some(DuplicateKey)
    else None
  }

  /** Flags only go one way and rows are never deleted: locked and used stay set, the rest of a row stays put. */
  predicate RowsKept(p0: map<string, Participant>, p1: map<string, Participant>,
                     s0: map<string, Session>, s1: map<string, Session>)
  {
    && (forall k :: k in p0 ==> k in p1 && (p0[k].locked ==> p1[k].locked) && p1[k].firstTs == p0[k].firstTs)
    && (forall k :: k in s0 ==> k in s1 && (s0[k].used ==> s1[k].used)
                                && s1[k].(used := s0[k].used) == s0[k])
  }

  /** `resetPrizes`: every level's remaining stock is restored to its total. */
  function Restocked(prizes: map<Tier, Prize>): (r: map<Tier, Prize>)
    ensures r.Keys == prizes.Keys
    ensures forall t :: t in r ==> r[t].total == prizes[t].total && r[t].remaining == prizes[t].total
  {
    map t | t in prizes :: prizes[t].(remaining := prizes[t].total)
  }

  /** `Math.max(0, Number(v) || 0)`: the new total and remaining of a level. */
  function Quota(v: int): (q: int)
    ensures q >= 0
    ensures v >= 0 ==> q == v
    ensures v < 0 ==> q == 0
  {
    MaxInt(0, OrInt(v, 0))
  }

  /** `setTotals`: only levels that already have a row are updated. */
  function Retotalled(prizes: map<Tier, Prize>, q1: int, q2: int, q3: int, qc: int): (r: map<Tier, Prize>)
    ensures r.Keys == prizes.Keys
    ensures forall t :: t in r ==> r[t].total == r[t].remaining == Quota(Pick(t, q1, q2, q3, qc))
  {
    map t | t in prizes :: Prize(Quota(Pick(t, q1, q2, q3, qc)), Quota(Pick(t, q1, q2, q3, qc)))
  }

  function Pick(t: Tier, q1: int, q2: int, q3: int, qc: int): int
  {
    match t
    case Tier1 => q1
    case Tier2 => q2
    case Tier3 => q3
    case Comfort => qc
  }

  // ---------------------------------------------------------------------------
  // Quotas and the stock they allow to be redeemed

  /**
   * `Math.max(0, Number(v) || 0)` as the source computes it on any numeric
   * request field: a fractional quota passes through, and the database keeps it.
   */
  function QuotaAsWritten(v: real): (q: real)
    ensures q >= 0.0
    ensures v >= 0.0 ==> q == v
  {
    MaxReal(0.0, OrReal(v, 0.0))
  }

  /** `decRemaining` applied `k` times to a real-valued remaining count. */
  function DrainAsWritten(rem: real, k: nat): (r: real)
    ensures rem <= 0.0 ==> r == rem
  {
    if k == 0 then rem else DrainAsWritten(if rem > 0.0 then rem - 1.0 else rem, k - 1)
  }

  /** While the count stays positive every decrement takes effect. */
  lemma {:induction false} DrainWhilePositive(rem: real, k: nat)
    requires rem > (k - 1) as real
    ensures DrainAsWritten(rem, k) == rem - k as real
  {
    if k > 0 {
      DrainWhilePositive(rem - 1.0, k - 1);
    }
  }

  /**
   * A fractional quota v lets floor(v) + 1 confirmations of that level all
   * succeed, and the remaining count ends below zero.
   */
  lemma FractionalQuotaGoesNegative(v: real)
    requires v > 0.0 && v != v.Floor as real
    ensures v.Floor + 1 >= 1 && DrainAsWritten(QuotaAsWritten(v), v.Floor + 1) < 0.0
  {
    DrainWhilePositive(v, v.Floor + 1);
  }

  /** The concrete case: a quota of 2.5 goes 2.5, 1.5, 0.5, -0.5. */
  lemma QuotaTwoAndAHalf()
    ensures QuotaAsWritten(2.5) == 2.5 && DrainAsWritten(2.5, 3) == -0.5
  {
    DrainWhilePositive(2.5, 3);
  }

  /** `decRemaining` applied `k` times to a whole-number remaining count. */
  function Drain(rem: int, k: nat): (r: int)
    ensures rem >= 0 ==> r >= 0
  {
    if k == 0 then rem else Drain(if rem > 0 then rem - 1 else rem, k - 1)
  }

  /** With whole-number quotas, redemptions stop at zero: k attempts take min(k, quota) prizes. */
  lemma {:induction false} IntegerStockNeverNegative(v: int, k: nat)
    ensures Drain(Quota(v), k) == MaxInt(0, Quota(v) - k)
  {
    DrainStopsAtZero(Quota(v), k);
  }

  lemma {:induction false} DrainStopsAtZero(rem: int, k: nat)
    requires rem >= 0
    ensures Drain(rem, k) == MaxInt(0, rem - k)
  {
    if k > 0 {
      DrainStopsAtZero(if rem > 0 then rem - 1 else rem, k - 1);
    }
  }

  /** Every session belongs to a participant row (the foreign key `sessions.emp_id`). */
  predicate SessionsOwned(participants: map<string, Participant>, sessions: map<string, Session>)
  {
    forall sid :: sid in sessions ==> sessions[sid].empId in participants
  }

  /** Every recorded award left its session used and its employee locked. */
  predicate AwardsRecorded(awarded: seq<(string, string)>, participants: map<string, Participant>,
                           sessions: map<string, Session>)
  {
    forall i :: 0 <= i < |awarded| ==>
      && awarded[i].0 in sessions && sessions[awarded[i].0].used
      && sessions[awarded[i].0].empId == awarded[i].1
      && awarded[i].1 in participants && participants[awarded[i].1].locked
  }

  /** No session and no employee has been awarded twice. */
  predicate AwardsDistinct(awarded: seq<(string, string)>)
  {
    forall i, j :: 0 <= i < j < |awarded| ==> awarded[i].0 != awarded[j].0 && awarded[i].1 != awarded[j].1
  }

  // ---------------------------------------------------------------------------
  // The store

  class LotteryStore {
    var prizes: map<Tier, Prize>
    var ledger: seq<Draw>
    var participants: map<string, Participant>
    var sessions: map<string, Session>
    var config: Config
    /** Every successful confirmation ever made, as (session id, employee id); resets do not clear it. */
    ghost var awarded: seq<(string, string)>

    ghost predicate Valid()
      reads this
    {
      && PrizesValid(prizes)
      && StockAccounted(prizes, ledger)
      && SessionsOwned(participants, sessions)
      && AwardsRecorded(awarded, participants, sessions)
      && AwardsDistinct(awarded)
    }

    /** First boot: the seeded configuration row and prize stock, no ledger, participants or sessions. */
    constructor ()
      ensures Valid()
      ensures config == Seeded
      ensures prizes == map[Tier1 := Prize(35, 35), Tier2 := Prize(70, 70), Tier3 := Prize(130, 130), Comfort := Prize(800, 800)]
      ensures ledger == [] && participants == map[] && sessions == map[] && awarded == []
    {
      config := Seeded;
      prizes := map[Tier1 := Prize(35, 35), Tier2 := Prize(70, 70), Tier3 := Prize(130, 130), Comfort := Prize(800, 800)];
      ledger := [];
      participants := map[];
      sessions := map[];
      awarded := [];
    }

    // -------------------------------------------------------------------------
    // Prepared statements

    /** `decRemaining`: decrement one level's stock if it is positive; reports whether a row changed. */
    method DecRemaining(t: Tier) returns (changed: bool)
      modifies this
      ensures changed <==> t in old(prizes) && old(prizes)[t].remaining > 0
      ensures prizes == if changed then old(prizes)[t := old(prizes)[t].(remaining := old(prizes)[t].remaining - 1)] else old(prizes)
      ensures ledger == old(ledger) && participants == old(participants) && sessions == old(sessions)
      ensures config == old(config) && awarded == old(awarded)
    {
      changed := t in prizes && prizes[t].remaining > 0;
      if changed {
        prizes := prizes[t := prizes[t].(remaining := prizes[t].remaining - 1)];
      }
    }

    /** `insertDraw`: append a ledger row; the primary key refuses a duplicate id. */
    method InsertDraw(d: Draw) returns (ok: bool)
      modifies this
      ensures ok <==> !HasDrawId(old(ledger), d.id)
      ensures ledger == if ok then old(ledger) + [d] else old(ledger)
      ensures prizes == old(prizes) && participants == old(participants) && sessions == old(sessions)
      ensures config == old(config) && awarded == old(awarded)
    {
      ok := !HasDrawId(ledger, d.id);
      if ok {
        ledger := ledger + [d];
      }
    }

    /** `markSessionUsed`. */
    method MarkSessionUsed(sid: string)
      modifies this
      ensures sessions == if sid in old(sessions) then old(sessions)[sid := old(sessions)[sid].(used := true)] else old(sessions)
      ensures prizes == old(prizes) && ledger == old(ledger) && participants == old(participants)
      ensures config == old(config) && awarded == old(awarded)
    {
      if sid in sessions {
        sessions := sessions[sid := sessions[sid].(used := true)];
      }
    }

    /** `lockPart`. */
    method LockParticipant(empId: string)
      modifies this
      ensures participants == if empId in old(participants) then old(participants)[empId := old(participants)[empId].(locked := true)] else old(participants)
      ensures prizes == old(prizes) && ledger == old(ledger) && sessions == old(sessions)
      ensures config == old(config) && awarded == old(awarded)
    {
      if empId in participants {
        participants := participants[empId := participants[empId].(locked := true)];
      }
    }

    /** `upsertPartNew`. */
    method UpsertParticipant(empId: string, empName: string, now: int)
      modifies this
      ensures participants == Upserted(old(participants), empId, empName, now)
      ensures prizes == old(prizes) && ledger == old(ledger) && sessions == old(sessions)
      ensures config == old(config) && awarded == old(awarded)
    {
      participants := Upserted(participants, empId, empName, now);
    }

    /** `insertSession`: a new unused session; the primary key refuses a duplicate id. */
    method InsertSession(sid: string, s: Session) returns (ok: bool)
      modifies this
      ensures ok <==> sid !in old(sessions)
      ensures sessions == if ok then old(sessions)[sid := s] else old(sessions)
      ensures prizes == old(prizes) && ledger == old(ledger) && participants == old(participants)
      ensures config == old(config) && awarded == old(awarded)
    {
      ok := sid !in sessions;
      if ok {
        sessions := sessions[sid := s];
      }
    }

    /** `updateConfig`: replace the configuration row. */
    method UpdateConfig(cfg: Config)
      requires Valid()
      modifies this
      ensures Valid()
      ensures config == cfg
      ensures prizes == old(prizes) && ledger == old(ledger) && participants == old(participants)
      ensures sessions == old(sessions) && awarded == old(awarded)
    {
      config := cfg;
    }

    // -------------------------------------------------------------------------
    // Endpoints

    /**
     * `POST /api/startDraw`: propose `DrawCount(count)` candidates without
     * touching stock or ledger, and open an unused session holding them.
     */
    method StartDraw(empId: string, empName: string, count: int, now: int, rs: seq<real>, vipR: real, sessionId: string)
      returns (r: Result<Proposal, Error>)
      requires Valid()
      requires |rs| == DrawCount(count)
      requires forall i :: 0 <= i < |rs| ==> 0.0 <= rs[i] < 1.0
      requires 0.0 <= vipR < 1.0
      modifies this
      ensures Valid()
      ensures prizes == old(prizes) && ledger == old(ledger) && config == old(config) && awarded == old(awarded)
      ensures RowsKept(old(participants), participants, old(sessions), sessions)
      ensures empId == "" ==> r == Err(Validation)
      ensures empId != "" && empId in old(participants) && old(participants)[empId].locked ==> r == Err(AlreadyLocked)
      ensures r == Err(Validation) || r == Err(AlreadyLocked) ==>
        participants == old(participants) && sessions == old(sessions)
      ensures !(r == Err(Validation) || r == Err(AlreadyLocked)) ==>
        participants == Upserted(old(participants), empId, empName, now)
      ensures r.Err? ==> r.error in {Validation, AlreadyLocked, DuplicateKey} && sessions == old(sessions)
      ensures r == Err(Validation) <==> empId == ""
      ensures r == Err(AlreadyLocked) <==> empId != "" && empId in old(participants) && old(participants)[empId].locked
      ensures r.Ok? <==>
        empId != "" && !(empId in old(participants) && old(participants)[empId].locked) && sessionId !in old(sessions)
      ensures r == Err(DuplicateKey) <==>
        empId != "" && !(empId in old(participants) && old(participants)[empId].locked) && sessionId in old(sessions)
      ensures r.Ok? ==>
        && r.value.sessionId == sessionId
        && |r.value.options| == DrawCount(count)
        && r.value.options == Proposed(old(config), old(prizes), old(ledger), empId, now, rs, vipR)
        && sessions == old(sessions)[sessionId := Session(empId, NonEmpty(empName), r.value.options, now, false)]
    {
      if empId == "" {
        return Err(Validation);
      }
      if empId in participants && participants[empId].locked {
        return Err(AlreadyLocked);
      }
      UpsertParticipant(empId, empName, now);
      UpsertKeeps(old(participants), sessions, awarded, empId, empName, now);
      var probs := Probabilities(config, prizes, ledger, now).probs;
      var sampled := SampleOptions(probs, rs);
      var options := VipOverride(empId, Remaining(prizes, Tier1), sampled, vipR);
      var ok := InsertSession(sessionId, Session(empId, NonEmpty(empName), options, now, false));
      if !ok {
        return Err(DuplicateKey);
      }
      OpenSessionKeeps(participants, old(sessions), awarded, sessionId, Session(empId, NonEmpty(empName), options, now, false));
      RowsKeptTransitive(old(participants), participants, participants, old(sessions), old(sessions), sessions);
      r := Ok(Proposal(sessionId, options));
    }

    /**
     * `POST /api/confirmChoice`: redeem one candidate of an open session. In one
     * transaction the chosen level's stock drops by one, a ledger row is appended,
     * the session is marked used and the employee locked; any failure changes nothing.
     */
    method ConfirmChoice(sessionId: string, chosenIndex: Option<int>, operator: string, clientId: string,
                         now: int, drawId: string)
      returns (r: Result<Receipt, Error>)
      requires Valid()
      modifies this
      ensures Valid()
      ensures config == old(config)
      ensures RowsKept(old(participants), participants, old(sessions), sessions)
      ensures var v := ConfirmVerdict(old(prizes), old(ledger), old(participants), old(sessions), sessionId, chosenIndex, drawId);
        && (r.Err? <==> v.Some?)
        && (r.Err? ==> r.error == v.value)
      ensures r.Err? ==>
        && prizes == old(prizes) && ledger == old(ledger) && participants == old(participants)
        && sessions == old(sessions) && awarded == old(awarded)
      ensures r.Ok? ==>
        var sess := old(sessions)[sessionId];
        var level := sess.options[chosenIndex.value];
        && r.value == Receipt(drawId, level)
        && prizes == old(prizes)[level := old(prizes)[level].(remaining := old(prizes)[level].remaining - 1)]
        && ledger == old(ledger) + [Draw(drawId, now, NonEmpty(operator), NonEmpty(clientId), sess.empName, NonEmpty(sess.empId), level)]
        && sessions == old(sessions)[sessionId := sess.(used := true)]
        && participants == old(participants)[sess.empId := old(participants)[sess.empId].(locked := true)]
        && awarded == old(awarded) + [(sessionId, sess.empId)]
    {
      if sessionId == "" || chosenIndex.None? {
        return Err(Validation);
      }
      if sessionId !in sessions {
        return Err(SessionNotFound);
      }
      var sess := sessions[sessionId];
      if sess.used {
        return Err(SessionAlreadyUsed);
      }
      if sess.empId in participants && participants[sess.empId].locked {
        return Err(AlreadyLocked);
      }
      var idx := chosenIndex.value;
      if !(0 <= idx < |sess.options|) {
        return Err(InvalidChoice);
      }
      r := Redeem(sessionId, sess.options[idx], operator, clientId, now, drawId);
    }

    /**
     * The transaction of `confirmChoice` for a checked session and level:
     * decrement the stock, append the ledger row, mark the session used and
     * lock the employee. When the stock is out or the insert fails, the
     * prize table is rolled back and nothing changes.
     */
    method Redeem(sessionId: string, level: Tier, operator: string, clientId: string, now: int, drawId: string)
      returns (r: Result<Receipt, Error>)
      requires Valid()
      requires sessionId in sessions && !sessions[sessionId].used
      requires !participants[sessions[sessionId].empId].locked
      modifies this
      ensures Valid()
      ensures config == old(config)
      ensures RowsKept(old(participants), participants, old(sessions), sessions)
      ensures r == Err(OutOfStock) <==> Remaining(old(prizes), level) <= 0
      ensures r == Err(DuplicateKey) <==> Remaining(old(prizes), level) > 0 && HasDrawId(old(ledger), drawId)
      ensures r.Err? ==> r.error in {OutOfStock, DuplicateKey}
      ensures r.Err? ==>
        && prizes == old(prizes) && ledger == old(ledger) && participants == old(participants)
        && sessions == old(sessions) && awarded == old(awarded)
      ensures r.Ok? ==>
        var sess := old(sessions)[sessionId];
        && r.value == Receipt(drawId, level)
        && prizes == old(prizes)[level := old(prizes)[level].(remaining := old(prizes)[level].remaining - 1)]
        && ledger == old(ledger) + [Draw(drawId, now, NonEmpty(operator), NonEmpty(clientId), sess.empName, NonEmpty(sess.empId), level)]
        && sessions == old(sessions)[sessionId := sess.(used := true)]
        && participants == old(participants)[sess.empId := old(participants)[sess.empId].(locked := true)]
        && awarded == old(awarded) + [(sessionId, sess.empId)]
    {
      var sess := sessions[sessionId];
      var failure := Debit(Draw(drawId, now, NonEmpty(operator), NonEmpty(clientId), sess.empName, NonEmpty(sess.empId), level));
      if failure.Some? {
        return Err(failure.value);
      }
      Settle(sessionId);
      r := Ok(Receipt(drawId, level));
    }

    /**
     * The stock half of the transaction: decrement the row's level, then append
     * the row; when the append fails the decrement is rolled back.
     */
    method Debit(d: Draw) returns (failure: Option<Error>)
      requires Valid()
      modifies this
      ensures Valid()
      ensures participants == old(participants) && sessions == old(sessions)
      ensures config == old(config) && awarded == old(awarded)
      ensures failure == Some(OutOfStock) <==> Remaining(old(prizes), d.level) <= 0
      ensures failure == Some(DuplicateKey) <==> Remaining(old(prizes), d.level) > 0 && HasDrawId(old(ledger), d.id)
      ensures failure.Some? ==> failure.value in {OutOfStock, DuplicateKey} && prizes == old(prizes) && ledger == old(ledger)
      ensures failure.None? ==>
        && prizes == old(prizes)[d.level := old(prizes)[d.level].(remaining := old(prizes)[d.level].remaining - 1)]
        && ledger == old(ledger) + [d]
    {
      var saved := prizes;
      var decremented := DecRemaining(d.level);
      if !decremented {
        return Some(OutOfStock);
      }
      var inserted := InsertDraw(d);
      if !inserted {
        prizes := saved;
        return Some(DuplicateKey);
      }
      RedeemKeepsStock(old(prizes), old(ledger), d);
      failure := None;
    }

    /** The bookkeeping half of the transaction: mark the session used, lock its employee, record the award. */
    method Settle(sessionId: string)
      requires Valid()
      requires sessionId in sessions && !sessions[sessionId].used
      requires !participants[sessions[sessionId].empId].locked
      modifies this
      ensures Valid()
      ensures prizes == old(prizes) && ledger == old(ledger) && config == old(config)
      ensures RowsKept(old(participants), participants, old(sessions), sessions)
      ensures var sess := old(sessions)[sessionId];
        && sessions == old(sessions)[sessionId := sess.(used := true)]
        && participants == old(participants)[sess.empId := old(participants)[sess.empId].(locked := true)]
        && awarded == old(awarded) + [(sessionId, sess.empId)]
    {
      var empId := sessions[sessionId].empId;
      MarkSessionUsed(sessionId);
      LockParticipant(empId);
      awarded := awarded + [(sessionId, empId)];
      ConfirmKeeps(old(participants), old(sessions), old(awarded), sessionId);
    }

    /**
     * `POST /api/admin/setTotals`: every existing level gets total = remaining =
     * the new quota, and the ledger is cleared; participants and sessions are kept.
     */
    method SetTotals(q1: int, q2: int, q3: int, qc: int)
      requires Valid()
      modifies this
      ensures Valid()
      ensures prizes == Retotalled(old(prizes), q1, q2, q3, qc)
      ensures ledger == []
      ensures participants == old(participants) && sessions == old(sessions)
      ensures config == old(config) && awarded == old(awarded)
    {
      prizes := Retotalled(prizes, q1, q2, q3, qc);
      ledger := [];
    }

    /** `POST /api/admin/reset`: clear the ledger and restore every level's stock to its total. */
    method Reset()
      requires Valid()
      modifies this
      ensures Valid()
      ensures ledger == []
      ensures prizes == Restocked(old(prizes))
      ensures participants == old(participants) && sessions == old(sessions)
      ensures config == old(config) && awarded == old(awarded)
    {
      ledger := [];
      prizes := Restocked(prizes);
    }
  }

  // ---------------------------------------------------------------------------
  // What each endpoint does to the participant and session tables

  lemma RowsKeptTransitive(p0: map<string, Participant>, p1: map<string, Participant>, p2: map<string, Participant>,
                           s0: map<string, Session>, s1: map<string, Session>, s2: map<string, Session>)
    requires RowsKept(p0, p1, s0, s1) && RowsKept(p1, p2, s1, s2)
    ensures RowsKept(p0, p2, s0, s2)
  {
    forall k | k in s0
      ensures k in s2 && (s0[k].used ==> s2[k].used) && s2[k].(used := s0[k].used) == s0[k]
    {
      assert s1[k].(used := s0[k].used) == s0[k];
      assert s2[k].(used := s1[k].used) == s1[k];
    }
  }

  /** The upsert of `startDraw` keeps every invariant and never touches a lock flag. */
  lemma UpsertKeeps(participants: map<string, Participant>, sessions: map<string, Session>,
                    awarded: seq<(string, string)>, empId: string, empName: string, now: int)
    requires SessionsOwned(participants, sessions) && AwardsRecorded(awarded, participants, sessions)
    ensures var p := Upserted(participants, empId, empName, now);
      SessionsOwned(p, sessions) && AwardsRecorded(awarded, p, sessions) && RowsKept(participants, p, sessions, sessions)
  {
    var p := Upserted(participants, empId, empName, now);
    forall i | 0 <= i < |awarded|
      ensures awarded[i].1 in p && p[awarded[i].1].locked
    {
      assert awarded[i].1 in participants && participants[awarded[i].1].locked;
    }
    forall k | k in sessions ensures sessions[k].(used := sessions[k].used) == sessions[k] {
    }
  }

  /** Opening a fresh session for a known participant keeps every invariant. */
  lemma OpenSessionKeeps(participants: map<string, Participant>, sessions: map<string, Session>,
                         awarded: seq<(string, string)>, sid: string, s: Session)
    requires SessionsOwned(participants, sessions) && AwardsRecorded(awarded, participants, sessions)
    requires sid !in sessions && s.empId in participants
    ensures SessionsOwned(participants, sessions[sid := s])
    ensures AwardsRecorded(awarded, participants, sessions[sid := s])
    ensures RowsKept(participants, participants, sessions, sessions[sid := s])
  {
    var s1 := sessions[sid := s];
    forall k | k in sessions ensures s1[k].(used := sessions[k].used) == sessions[k] {
      assert s1[k] == sessions[k];
    }
  }

  /**
   * A successful confirmation marks the session used and locks its employee, and
   * records the award; as the session was unused and the employee unlocked,
   * neither had been awarded before, so no session or employee is awarded twice.
   */
  lemma ConfirmKeeps(participants: map<string, Participant>, sessions: map<string, Session>,
                     awarded: seq<(string, string)>, sid: string)
    requires SessionsOwned(participants, sessions) && AwardsRecorded(awarded, participants, sessions)
    requires AwardsDistinct(awarded)
    requires sid in sessions && !sessions[sid].used && !participants[sessions[sid].empId].locked
    ensures var e := sessions[sid].empId;
      var p := participants[e := participants[e].(locked := true)];
      var s := sessions[sid := sessions[sid].(used := true)];
      var a := awarded + [(sid, e)];
      SessionsOwned(p, s) && AwardsRecorded(a, p, s) && AwardsDistinct(a) && RowsKept(participants, p, sessions, s)
  {
    var e := sessions[sid].empId;
    var p := participants[e := participants[e].(locked := true)];
    var s := sessions[sid := sessions[sid].(used := true)];
    var a := awarded + [(sid, e)];
    forall i | 0 <= i < |a|
      ensures a[i].0 in s && s[a[i].0].used && s[a[i].0].empId == a[i].1 && a[i].1 in p && p[a[i].1].locked
    {
      if i < |awarded| {
        assert a[i] == awarded[i];
      }
    }
    forall i, j | 0 <= i < j < |a| ensures a[i].0 != a[j].0 && a[i].1 != a[j].1 {
      if j == |awarded| {
        assert a[i] == awarded[i];
        assert sessions[awarded[i].0].used;
      }
    }
    forall k | k in sessions ensures s[k].(used := sessions[k].used) == sessions[k] {
    }
  }

  // ---------------------------------------------------------------------------
  // What the controller reads from the store

  /** The ledger's higher-tier count is the sum of its per-level counts. */
  lemma {:induction false} CountHigherIsIssued(ledger: seq<Draw>)
    ensures CountHigher(Levels(ledger)) == Issued(ledger, Tier1) + Issued(ledger, Tier2) + Issued(ledger, Tier3)
  {
    if ledger != [] {
      var init := ledger[..|ledger| - 1];
      CountHigherIsIssued(init);
      assert Levels(ledger)[..|ledger| - 1] == Levels(init);
    }
  }

  /**
   * The `issuedNA` the controller compares with its target is exactly the
   * higher-tier stock consumed since the last reset: total minus remaining.
   */
  lemma IssuedIsConsumedStock(prizes: map<Tier, Prize>, ledger: seq<Draw>)
    requires StockAccounted(prizes, ledger)
    requires Tier1 in prizes && Tier2 in prizes && Tier3 in prizes
    ensures CountHigher(Levels(ledger))
      == TotalsNA(prizes) - (Remaining(prizes, Tier1) + Remaining(prizes, Tier2) + Remaining(prizes, Tier3))
  {
    CountHigherIsIssued(ledger);
  }

  /**
   * End to end: every higher-tier candidate `startDraw` proposes has stock
   * left at the time of the proposal, the VIP slot included.
   */
  lemma ProposedInStock(cfg: Config, prizes: map<Tier, Prize>, ledger: seq<Draw>, empId: string, now: int,
                        rs: seq<real>, vipR: real, i: int)
    requires PrizesValid(prizes)
    requires |rs| > 0 && 0.0 <= vipR < 1.0 && forall j :: 0 <= j < |rs| ==> 0.0 <= rs[j] < 1.0
    requires 0 <= i < |rs|
    ensures var t := Proposed(cfg, prizes, ledger, empId, now, rs, vipR)[i];
      IsHigher(t) ==> Remaining(prizes, t) > 0
  {
    var s := StockIn(prizes);
    var sampled := SampleAll(Probabilities(cfg, prizes, ledger, now).probs, rs);
    var options := Proposed(cfg, prizes, ledger, empId, now, rs, vipR);
    if options[i] != sampled[i] {
      assert options[i] == Tier1 && OverrideApplies(empId, Remaining(prizes, Tier1), sampled);
    } else {
      SampledHigherTierInStock(cfg, s, TotalsNA(prizes), Levels(ledger), now, rs[i]);
      assert StockOf(s, sampled[i]) == Remaining(prizes, sampled[i]);
    }
  }
}

=== FILE: tiers.dfy ===
/**
 * The four prize levels. The server keys them by their display strings
 * ("一等奖", "二等奖", "三等奖", "阳光普照奖"); here each string is a constructor.
 */
module Tiers {

  datatype Tier = Tier1 | Tier2 | Tier3 | Comfort

  /** The pacing-controlled levels, i.e. `level IN ('一等奖','二等奖','三等奖')`. */
  predicate IsHigher(t: Tier)
  {
    t != Comfort
  }

  /** One sampling weight per level, in the sampler's band order. */
  datatype Probs = Probs(p1: real, p2: real, p3: real, pc: real) {
    function Of(t: Tier): real
    {
      match t
      case Tier1 => p1
      case Tier2 => p2
      case Tier3 => p3
      case Comfort => pc
    }

    function Total(): real { p1 + p2 + p3 + pc }
  }

  /** Number of higher-tier entries, i.e. `COUNT(*) ... WHERE prize_level IN (...)` over a list of levels. */
  function CountHigher(levels: seq<Tier>): (n: nat)
    ensures n <= |levels|
    ensures n == 0 <==> forall i :: 0 <= i < |levels| ==> levels[i] == Comfort
  {
    if levels == [] then 0
    else CountHigher(levels[..|levels| - 1]) + (if IsHigher(levels[|levels| - 1]) then 1 else 0)
  }

  /** A list of consolation prizes only holds no higher-tier hit. */
  lemma AllComfortNoHits(levels: seq<Tier>)
    requires forall i :: 0 <= i < |levels| ==> levels[i] == Comfort
    ensures CountHigher(levels) == 0
  {
  }
}

=== FILE: window.dfy ===
/**
 * Where the event stands in time: the elapsed minutes, the active third of the
 * event, and the cumulative higher-tier issuance targeted by now. The clock
 * reading `Date.now()` is the parameter `now` (milliseconds).
 */
module Window {
  import opened Basics
  import opened Settings

  datatype WindowInfo = WindowInfo(
    windowIdx: Option<int>,  // None when the event has not started
    elapsedMin: int,         // minutes passed, capped at the duration
    targetCum: real,         // higher-tier issuance targeted so far
    windowTarget: real,      // target of the active third alone
    winLen: int)

  /** Target of each third: its share times the higher tiers' total capacity. */
  function PerWindow(cfg: Config, totalsNA: int): (per: seq<real>)
    ensures |per| == 3
    ensures per[0] == cfg.share1 * totalsNA as real
    ensures per[1] == cfg.share2 * totalsNA as real
    ensures per[2] == cfg.share3 * totalsNA as real
  {
    [cfg.share1 * totalsNA as real, cfg.share2 * totalsNA as real, cfg.share3 * totalsNA as real]
  }

  /**
   * The accumulation loop from window `w` (starting at minute `s`) onwards: a
   * fully elapsed window adds its whole target, the window in progress adds the
   * elapsed fraction and stops, and a window not yet begun stops.
   */
  function CumFrom(per: seq<real>, winLen: int, passed: int, w: nat, s: int): (r: real)
    requires |per| == 3 && w <= 3 && winLen != 0
    ensures winLen > 0 && passed <= s ==> r == 0.0
    decreases 3 - w
  {
    if w == 3 then 0.0
    else
      var e := s + winLen;
      if passed >= e then per[w] + CumFrom(per, winLen, passed, w + 1, e)
      else if passed > s then Portion(per[w], passed - s, winLen)
      else 0.0
  }

  /** The part of target `x` earned after `a` of the `l` minutes of a window. */
  function Portion(x: real, a: int, l: int): real
    requires l != 0
  {
    x * (a as real / l as real)
  }

  function PrefixSum(per: seq<real>, k: nat): real
    requires k <= |per|
  {
    if k == 0 then 0.0 else PrefixSum(per, k - 1) + per[k - 1]
  }

  /**
   * Reference definition of the target curve: the windows wholly behind `passed`
   * plus the linearly interpolated part of the window `passed` falls in.
   */
  function Interpolated(per: seq<real>, winLen: int, passed: int): real
    requires |per| == 3 && winLen > 0 && passed >= 0
  {
    var k := passed / winLen;
    if k >= 3 then per[0] + per[1] + per[2]
    else PrefixSum(per, k) + Portion(per[k], passed - k * winLen, winLen)
  }

  /** Whole minutes since the start, `Math.max(0, Math.floor((now - start) / 60000))`. */
  function ElapsedMinutes(cfg: Config, now: int): (m: int)
    ensures m >= 0
    ensures now <= cfg.startTs ==> m == 0
    ensures now >= cfg.startTs ==> m * 60000 <= now - cfg.startTs < m * 60000 + 60000
  {
    MaxInt(0, (now - cfg.startTs) / 60000)  // 60000 > 0, so Dafny's division is the floor
  }

  /** `nowWindowAndTargets(cfg, totalsNA)` as a function of the clock reading. */
  function WindowAndTargets(cfg: Config, totalsNA: int, now: int): (r: WindowInfo)
    ensures r.winLen == WinLen(cfg)
    ensures !Started(cfg) ==> r.windowIdx.None? && r.elapsedMin == 0 && r.targetCum == 0.0 && r.windowTarget == 0.0
    ensures Started(cfg) ==> r.windowIdx.Some?
    ensures Started(cfg) ==> r.elapsedMin == MinInt(ElapsedMinutes(cfg, now), Duration(cfg))
  {
    var winLen := WinLen(cfg);
    if !Started(cfg) then WindowInfo(None, 0, 0.0, 0.0, winLen)
    else
      var elapsed := ElapsedMinutes(cfg, now);
      var idx := MinInt(2, FloorDiv(elapsed, winLen));
      var passed := MinInt(elapsed, Duration(cfg));
      var per := PerWindow(cfg, totalsNA);
      WindowInfo(Some(idx), passed, CumFrom(per, winLen, passed, 0, 0),
                 if 0 <= idx < 3 then per[idx] else 0.0, winLen)
  }

  /** The source's accumulation loop over the three windows, with its early `break`. */
  method AccumulateTarget(per: seq<real>, winLen: int, passed: int) returns (targetCum: real)
    requires |per| == 3 && winLen != 0
    ensures targetCum == CumFrom(per, winLen, passed, 0, 0)
  {
    targetCum := 0.0;
    var w := 0;
    while w < 3
      invariant 0 <= w <= 3
      invariant targetCum + CumFrom(per, winLen, passed, w, w * winLen) == CumFrom(per, winLen, passed, 0, 0)
    {
      var s, e := w * winLen, (w + 1) * winLen;
      assert e == s + winLen;
      if passed >= e {
        targetCum := targetCum + per[w];
      } else if passed > s {
        targetCum := targetCum + per[w] * ((passed - s) as real / winLen as real);
        break;
      } else {
        break;
      }
      w := w + 1;
    }
  }

  /** `nowWindowAndTargets` step by step, as the source computes it. */
  method NowWindowAndTargets(cfg: Config, totalsNA: int, now: int) returns (r: WindowInfo)
    ensures r == WindowAndTargets(cfg, totalsNA, now)
  {
    var winLen := WinLen(cfg);
    if !Started(cfg) {
      return WindowInfo(None, 0, 0.0, 0.0, winLen);
    }
    var elapsed := ElapsedMinutes(cfg, now);
    var idx := MinInt(2, FloorDiv(elapsed, winLen));
    var passed := MinInt(elapsed, Duration(cfg));
    var per := PerWindow(cfg, totalsNA);
    var targetCum := AccumulateTarget(per, winLen, passed);
    var windowTarget := if 0 <= idx < 3 then per[idx] else 0.0;
    r := WindowInfo(Some(idx), passed, targetCum, windowTarget, winLen);
  }

  lemma MulMono(k: int, l: int, c: int)
    requires l > 0 && k >= c
    ensures k * l >= c * l
  {
    assert k * l - c * l == (k - c) * l;
  }

  /**
   * Once started with a non-negative duration, the active window is one of the
   * three thirds, its target is that third's, and the minutes passed lie
   * between 0 and the duration.
   */
  lemma WindowIndexInRange(cfg: Config, totalsNA: int, now: int)
    requires Started(cfg) && cfg.durationMin >= 0
    ensures var r := WindowAndTargets(cfg, totalsNA, now);
      && r.windowIdx.Some? && 0 <= r.windowIdx.value <= 2
      && r.windowTarget == PerWindow(cfg, totalsNA)[r.windowIdx.value]
      && 0 <= r.elapsedMin <= Duration(cfg)
    ensures var r := WindowAndTargets(cfg, totalsNA, now);
      var e := ElapsedMinutes(cfg, now);
      var i := r.windowIdx.value;
      && r.elapsedMin == MinInt(e, Duration(cfg))
      && (i < 2 ==> i * r.winLen <= e < (i + 1) * r.winLen)
      && (i == 2 ==> 2 * r.winLen <= e)
  {
    var elapsed := ElapsedMinutes(cfg, now);
    var L := WinLen(cfg);
    assert FloorDiv(elapsed, L) == elapsed / L;
    assert elapsed / L >= 0;
    ActiveWindow(elapsed, L);
  }

  /** The window `min(2, floor(e / L))` is the third that minute `e` falls in, the last one from then on. */
  lemma ActiveWindow(e: int, L: int)
    requires e >= 0 && L > 0
    ensures var i := MinInt(2, e / L);
      && (i < 2 ==> i * L <= e < (i + 1) * L)
      && (i == 2 ==> 2 * L <= e)
  {
    var q := e / L;
    assert e == q * L + e % L && 0 <= e % L < L;
    if q >= 2 {
      MulMono(q, L, 2);
    }
  }

  /** Once started (with a non-negative duration), the target so far is the interpolated curve. */
  lemma {:induction false} TargetIsInterpolated(cfg: Config, totalsNA: int, now: int)
    requires Started(cfg) && cfg.durationMin >= 0
    ensures var r := WindowAndTargets(cfg, totalsNA, now);
      r.targetCum == Interpolated(PerWindow(cfg, totalsNA), r.winLen, r.elapsedMin)
  {
    var r := WindowAndTargets(cfg, totalsNA, now);
    CumMatchesInterpolated(PerWindow(cfg, totalsNA), r.winLen, r.elapsedMin);
  }

  lemma DivIs(a: int, l: int, k: int)
    requires l > 0 && k * l <= a < k * l + l
    ensures a / l == k
  {
    var q := a / l;
    assert a == q * l + a % l && 0 <= a % l < l;
    if q > k {
      MulMono(q, l, k + 1);
      assert false;
    } else if q < k {
      MulMono(k, l, q + 1);
      assert false;
    }
  }

  lemma {:induction false} CumMatchesInterpolated(per: seq<real>, winLen: int, passed: int)
    requires |per| == 3 && winLen > 0 && passed >= 0
    ensures CumFrom(per, winLen, passed, 0, 0) == Interpolated(per, winLen, passed)
  {
    if passed < winLen {
      CumInFirst(per, winLen, passed);
    } else if passed < 2 * winLen {
      CumInSecond(per, winLen, passed);
    } else if passed < 3 * winLen {
      CumInThird(per, winLen, passed);
    } else {
      CumAfterAll(per, winLen, passed);
    }
  }

  lemma CumInFirst(per: seq<real>, L: int, passed: int)
    requires |per| == 3 && L > 0 && 0 <= passed < L
    ensures CumFrom(per, L, passed, 0, 0) == Interpolated(per, L, passed)
  {
    DivIs(passed, L, 0);
    InWindow(per, L, passed, 0, 0);
    assert Interpolated(per, L, passed) == PrefixSum(per, 0) + Portion(per[0], passed, L);
  }

  lemma CumInSecond(per: seq<real>, L: int, passed: int)
    requires |per| == 3 && L > 0 && L <= passed < 2 * L
    ensures CumFrom(per, L, passed, 0, 0) == Interpolated(per, L, passed)
  {
    DivIs(passed, L, 1);
    InWindow(per, L, passed, 1, L);
    assert PrefixSum(per, 1) == per[0];
    assert Interpolated(per, L, passed) == per[0] + Portion(per[1], passed - L, L);
  }

  lemma CumInThird(per: seq<real>, L: int, passed: int)
    requires |per| == 3 && L > 0 && 2 * L <= passed < 3 * L
    ensures CumFrom(per, L, passed, 0, 0) == Interpolated(per, L, passed)
  {
    DivIs(passed, L, 2);
    InWindow(per, L, passed, 2, 2 * L);
    assert PrefixSum(per, 2) == per[0] + per[1] by {
      assert PrefixSum(per, 1) == per[0];
    }
    assert Interpolated(per, L, passed) == per[0] + per[1] + Portion(per[2], passed - 2 * L, L);
    assert CumFrom(per, L, passed, 1, L) == per[1] + CumFrom(per, L, passed, 2, 2 * L);
  }

  lemma CumAfterAll(per: seq<real>, L: int, passed: int)
    requires |per| == 3 && L > 0 && 3 * L <= passed
    ensures CumFrom(per, L, passed, 0, 0) == Interpolated(per, L, passed)
  {
    var k := passed / L;
    assert k * L <= passed < k * L + L;
    if k < 3 {
      MulMono(2, L, k);
      assert false;
    }
    assert CumFrom(per, L, passed, 2, 2 * L) == per[2] + CumFrom(per, L, passed, 3, 3 * L);
    assert CumFrom(per, L, passed, 1, L) == per[1] + CumFrom(per, L, passed, 2, 2 * L);
  }

  /** Inside window k, which starts at minute s, the loop adds the elapsed fraction of that window and stops. */
  lemma InWindow(per: seq<real>, L: int, passed: int, k: nat, s: int)
    requires |per| == 3 && L > 0 && k < 3 && s <= passed < s + L
    ensures CumFrom(per, L, passed, k, s) == Portion(per[k], passed - s, L)
  {
    if passed == s {
      assert Portion(per[k], 0, L) == 0.0;
    }
  }

  /** The whole capacity share is targeted once the three windows are over. */
  lemma {:induction false} TargetReachesTotal(cfg: Config, totalsNA: int, now: int)
    requires Started(cfg)
    requires WindowAndTargets(cfg, totalsNA, now).elapsedMin >= 3 * WinLen(cfg) > 0
    ensures WindowAndTargets(cfg, totalsNA, now).targetCum == (cfg.share1 + cfg.share2 + cfg.share3) * totalsNA as real
  {
    var r := WindowAndTargets(cfg, totalsNA, now);
    var per := PerWindow(cfg, totalsNA);
    var L := WinLen(cfg);
    assert r.elapsedMin >= L && r.elapsedMin >= 2 * L;
    assert CumFrom(per, L, r.elapsedMin, 2, 2 * L) == per[2];
    assert CumFrom(per, L, r.elapsedMin, 0, 0) == per[0] + per[1] + per[2];
  }

  /** Nothing is targeted at the very start of the event. */
  lemma {:induction false} TargetStartsAtZero(cfg: Config, totalsNA: int, now: int)
    requires Started(cfg) && cfg.durationMin >= 0 && now <= cfg.startTs + 59999
    ensures WindowAndTargets(cfg, totalsNA, now).elapsedMin == 0
    ensures WindowAndTargets(cfg, totalsNA, now).targetCum == 0.0
    ensures WindowAndTargets(cfg, totalsNA, now).windowIdx == Some(0)
  {
    assert (now - cfg.startTs) / 60000 <= 0;
    assert ElapsedMinutes(cfg, now) == 0;
  }

  lemma PortionMonotone(x: real, a: int, b: int, l: int)
    requires x >= 0.0 && l > 0 && 0 <= a <= b
    ensures 0.0 <= Portion(x, a, l) <= Portion(x, b, l)
  {
    var fa, fb := a as real / l as real, b as real / l as real;
    assert 0.0 <= fa <= fb;
  }

  lemma PortionBound(x: real, a: int, l: int)
    requires x >= 0.0 && l > 0 && 0 <= a <= l
    ensures 0.0 <= Portion(x, a, l) <= x
  {
    var fa := a as real / l as real;
    assert 0.0 <= fa <= 1.0;
  }

  lemma {:induction false} CumFromNonNegative(per: seq<real>, winLen: int, passed: int, w: nat, s: int)
    requires |per| == 3 && w <= 3 && winLen > 0
    requires per[0] >= 0.0 && per[1] >= 0.0 && per[2] >= 0.0
    ensures CumFrom(per, winLen, passed, w, s) >= 0.0
    decreases 3 - w
  {
    if w < 3 {
      assert per[w] >= 0.0;
      if passed >= s + winLen {
        CumFromNonNegative(per, winLen, passed, w + 1, s + winLen);
      } else if passed > s {
        PortionBound(per[w], passed - s, winLen);
      }
    }
  }

  lemma {:induction false} CumFromMonotone(per: seq<real>, winLen: int, p: int, q: int, w: nat, s: int)
    requires |per| == 3 && w <= 3 && winLen > 0 && p <= q
    requires per[0] >= 0.0 && per[1] >= 0.0 && per[2] >= 0.0
    ensures CumFrom(per, winLen, p, w, s) <= CumFrom(per, winLen, q, w, s)
    decreases 3 - w
  {
    if w < 3 {
      var e := s + winLen;
      var x := per[w];
      assert x >= 0.0;
      if q >= e {
        CumFromNonNegative(per, winLen, q, w + 1, e);
        if p >= e {
          CumFromMonotone(per, winLen, p, q, w + 1, e);
        } else if p > s {
          PortionBound(x, p - s, winLen);
        }
      } else if q > s {
        if p > s {
          PortionMonotone(x, p - s, q - s, winLen);
        } else {
          PortionBound(x, q - s, winLen);
        }
      }
    }
  }

  /** With non-negative shares and capacity, the target never decreases as the clock advances. */
  lemma {:induction false} TargetMonotone(cfg: Config, totalsNA: int, now1: int, now2: int)
    requires Started(cfg) && now1 <= now2
    requires cfg.share1 >= 0.0 && cfg.share2 >= 0.0 && cfg.share3 >= 0.0 && totalsNA >= 0
    ensures WindowAndTargets(cfg, totalsNA, now1).targetCum <= WindowAndTargets(cfg, totalsNA, now2).targetCum
  {
    var r1, r2 := WindowAndTargets(cfg, totalsNA, now1), WindowAndTargets(cfg, totalsNA, now2);
    if Duration(cfg) < 0 {
      // Minutes passed are capped at the (negative) duration for every clock reading.
      assert r1.elapsedMin == Duration(cfg) == r2.elapsedMin;
      return;
    }
    assert (now1 - cfg.startTs) / 60000 <= (now2 - cfg.startTs) / 60000;
    var per := PerWindow(cfg, totalsNA);
    assert per[0] >= 0.0 && per[1] >= 0.0 && per[2] >= 0.0;
    CumFromMonotone(per, WinLen(cfg), r1.elapsedMin, r2.elapsedMin, 0, 0);
  }
}
